=== FILE: README.md ===
# MindBox entity store and reducers, in Dafny

MindBox is a note-taking application. Boxes form a folder forest and hold
Thoughts; Keywords tag Thoughts. The application keeps three file-backed
collections (boxes, thoughts, keywords). Each is an identified array: a
sequence whose ids are unique. A set of small reducers edits these
collections in response to user actions.

This project models that core as pure functions:

- `IdentifiedArray` holds the identified-array operations the reducers use,
  over any key function. These are the subscript write `xs[id:] = v` (upsert),
  `remove(id:)`, `append` (does nothing when the id is present), the subscript
  read `xs[id:]` and `filter`.
- `Models` holds the records and value types: `Box`, `Thought`, `Keyword`,
  the 8-value `BoxThemeColor` with its hex strings and sections, and `Status`.
- `EntityStore` holds the three collections as one `Store` value, the views
  derived from it (root boxes, keywords on a thought, thoughts for a keyword,
  thought by id) and the record edits that several features share.
- `Constants` holds the `WindowTag` URL-string builder.
- There is one module per reducer. Each reducer is a function from (state,
  store, action) to (state, store, effect). `.send(x)` becomes an effect that
  names `x`. Other effects are markers (`Dismiss`, `OpenUrl`, the publishers).
- `Environment.Env` carries the collaborators the model leaves uninterpreted:
  the UUID generator, `Date.now`, UUID/string conversion, `lowercased`, URL
  parsing and the platform.

The earlier versions of three features are separate modules
(`BoxRowThemePicker`, `ListThoughtDetail`, `ListKeywordsCollection`).

## Model

| member | source | states |
|---|---|---|
| Models.RawValue | MindBoxPackage/Sources/Models/Models.swift:31-55 | the raw value is the wrapped shade's hex string, seven characters starting with `#` |
| Models.RawValueInjective | MindBoxPackage/Sources/Models/Models.swift:31-55 | two colours with the same hex string are the same colour |
| Models.Description | MindBoxPackage/Sources/Models/Models.swift:57-62 | the description is "Pastel" exactly for pastel colours and "Gold" exactly for gold ones |
| Models.AllCases | MindBoxPackage/Sources/Models/Models.swift:64-70 | exactly 8 colours: the 4 pastel shades in declaration order, then the 4 gold shades; every colour appears, none twice |
| Models.SectionCases | MindBoxPackage/Sources/Models/Models.swift:72-77 | two sections whose concatenation is `allCases`; section 0 is all "Pastel", section 1 all "Gold" |
| Models.NewBox | MindBoxPackage/Sources/Models/Models.swift:80-92 | a new box is named "New Box", coloured lemon sorbet (`#EADFB4`), and has a parent only when one is given |
| Models.StatusDescription | MindBoxPackage/Sources/Models/Models.swift:109-115 | active gives "ACTIVE", archived gives "ARCHIVED", a custom status gives its upper-cased text |
| Models.StatusAllCases | MindBoxPackage/Sources/Models/Models.swift:116-118 | three distinct statuses: active, archived, then the custom status "自定义" |
| Models.NewThought | MindBoxPackage/Sources/Models/Models.swift:129-136 | the initialiser keeps every argument it is given |
| Models.NewThoughtDefaults | MindBoxPackage/Sources/Models/Models.swift:129 | without overrides a thought is titled "New Thought", has body "Handle your thought" and is active |
| Constants.WindowString | MindBoxPackage/Sources/Constants/WindowTag.swift:18-28 | the main window is "myapp://MindBox/MainWindow"; the unfocused keywords window is "myapp://MindBox/KeywordsWindow"; a focused one appends "/" and the id text |
| Constants.KeywordsWindowStrictPrefix | MindBoxPackage/Sources/Constants/WindowTag.swift:21-26 | the unfocused keywords-window string is a strict prefix of every focused one |
| Constants.KeywordIdRecoverable | MindBoxPackage/Sources/Constants/WindowTag.swift:22-23 | dropping the unfocused string and the slash gives back the id text |
| Constants.WindowStringInjective | MindBoxPackage/Sources/Constants/WindowTag.swift:18-28 | different window tags have different strings |
| Constants.MainWindowDistinct | MindBoxPackage/Sources/Constants/WindowTag.swift:18-28 | the main-window string is never a keywords-window string |
| IdentifiedArray.Find | MindBoxPackage/Sources/KeywordsWindowFeature/KeywordsWindow.swift:50 | the lookup finds nothing exactly when no element has the id, and otherwise an element carrying the id |
| IdentifiedArray.Upsert | MindBoxPackage/Sources/BoxListFeature/BoxList.swift:48 | the subscript write keeps ids unique and makes the lookup of the id give the new element; a present id is replaced at its own position with every other element in place, an absent id is appended at the end |
| IdentifiedArray.UpsertIdempotent | MindBoxPackage/Sources/ThoughtDetailFeature/ThoughtDetail.swift:75 | writing the same element twice equals writing it once |
| IdentifiedArray.Remove | MindBoxPackage/Sources/BoxRowFeature/BoxRow.swift:68 | after removal the id is absent and every other lookup is unchanged; a present id's element is cut out and the others keep their order, an absent id changes nothing |
| IdentifiedArray.Append | MindBoxPackage/Sources/BoxRowFeature/BoxRow.swift:62 | append changes nothing when the id is present; otherwise it adds the element at the end and leaves the prefix alone |
| IdentifiedArray.AppendPresentKeepsOld | MindBoxPackage/Sources/BoxRowFeature/BoxRow.swift:62 | for a present id, append keeps the old element where the subscript write replaces it |
| IdentifiedArray.Filter | MindBoxPackage/Sources/BoxListFeature/BoxList.swift:22 | the filter keeps exactly the elements satisfying the predicate, each as often as it occurs, in their original order, and drops every other element |
| IdentifiedArray.FilterIdsUnique | MindBoxPackage/Sources/BoxListFeature/BoxList.swift:22 | a filtered identified array still has unique ids |
| EntityStore.RootBoxes | MindBoxPackage/Sources/BoxListFeature/BoxList.swift:22 | exactly the stored boxes without a parent, in store order |
| EntityStore.KeywordsOnThought | MindBoxPackage/Sources/ThoughtDetailFeature/ThoughtKeywordsCollectionView.swift:38-39 | exactly the stored keywords whose thought ids contain the thought, in store order |
| EntityStore.KeywordsOnThoughtUnique | MindBoxPackage/Sources/ThoughtDetailFeature/ThoughtKeywordsCollectionView.swift:39 | that view has unique ids |
| EntityStore.ThoughtsForKeyword | MindBoxPackage/Sources/KeywordListFeature/KeywordRow.swift:25-26 | exactly the stored thoughts whose id the keyword lists, in store order |
| EntityStore.ThoughtsForKeywordUnique | MindBoxPackage/Sources/KeywordListFeature/KeywordRow.swift:26 | the view never repeats a thought, even when the keyword repeats an id |
| EntityStore.ThoughtsForKeywordIgnoresRepeats | MindBoxPackage/Sources/KeywordListFeature/KeywordRow.swift:26 | the view depends only on which ids the keyword lists, not on their order or repetition |
| EntityStore.ThoughtById | MindBoxPackage/Sources/KeywordsWindowFeature/KeywordsWindow.swift:50 | the lookup by id finds the one stored thought with that id, or nothing when there is none |
| EntityStore.Linked | MindBoxPackage/Sources/Components/ThoughtKeywordPicker.swift:51-52 | the keyword gains the thought id at the end of its list, one more occurrence even if it was already there; nothing else changes |
| EntityStore.Unlinked | MindBoxPackage/Sources/ThoughtDetailFeature/ThoughtKeywordsCollectionView.swift:77-78 | every occurrence of the thought id is dropped, other ids keep their counts and order; nothing else changes |
| EntityStore.UnlinkAfterLink | MindBoxPackage/Sources/ThoughtDetailFeature/ThoughtKeywordsCollectionView.swift:77-78 | unlinking a thought after one link of it gives the same keyword as unlinking alone |
| EntityStore.UnlinkRestores | MindBoxPackage/Sources/ThoughtDetailFeature/ThoughtKeywordsCollectionView.swift:77-78 | linking a thought the keyword did not tag and then unlinking it gives back the original keyword |
| EntityStore.SelectColor | MindBoxPackage/Sources/Components/BoxThemePicker.swift:52-58 | the current colour is a no-op; another colour changes only the box's colour and stores the box under its id, leaving other boxes alone |
| BoxThemePicker.Init | MindBoxPackage/Sources/Components/BoxThemePicker.swift:32-39 | the picker starts hidden, with the two palette sections |
| BoxThemePicker.ChooseColor | MindBoxPackage/Sources/Components/BoxThemePicker.swift:52-59 | selecting the current colour changes neither state nor store; otherwise only the box colour changes and the store holds the recoloured box, other boxes unchanged |
| BoxThemePicker.ChooseColorIdempotent | MindBoxPackage/Sources/Components/BoxThemePicker.swift:52-59 | selecting a colour twice equals selecting it once |
| BoxThemePicker.Reduce | MindBoxPackage/Sources/Components/BoxThemePicker.swift:47-65 | the show-picker button sets the flag and nothing else; bindings do nothing |
| BoxRowThemePicker.Reduce | MindBoxPackage/Sources/BoxRowFeature/BoxThemePicker.swift:24-35 | the same-colour no-op, the recolour written under the box id, other boxes unchanged |
| BoxRowThemePicker.ReduceIdempotent | MindBoxPackage/Sources/BoxRowFeature/BoxThemePicker.swift:26-33 | repeating a selection changes nothing further |
| BoxRow.Init | MindBoxPackage/Sources/BoxRowFeature/BoxRow.swift:28-39 | a row starts unfocused with nothing presented |
| BoxRow.CreateSubBox | MindBoxPackage/Sources/BoxRowFeature/BoxRow.swift:59-63 | a fresh id appends a default box whose parent is the row's box, leaving every existing box in place; a taken id changes nothing |
| BoxRow.Perform | MindBoxPackage/Sources/BoxRowFeature/BoxRow.swift:66-69 | the deferred delete removes the record with the box's id and no other record |
| BoxRow.Reduce | MindBoxPackage/Sources/BoxRowFeature/BoxRow.swift:52-80 | delete defers the removal of this box's id; rename focuses the field and changes no data |
| BoxRow.DeleteDoesNotCascade | MindBoxPackage/Sources/BoxRowFeature/BoxRow.swift:65-69 | after a delete, child boxes and all thoughts are still stored and exactly one record is gone |
| BoxList.Init | MindBoxPackage/Sources/BoxListFeature/BoxList.swift:20-23 | the list is exactly the stored root boxes, in store order, with unique ids |
| BoxList.CreateNewBox | MindBoxPackage/Sources/BoxListFeature/BoxList.swift:45-50 | a default root box is stored under its id and the same box is appended to the list |
| BoxList.Reduce | MindBoxPackage/Sources/BoxListFeature/BoxList.swift:38-57 | every action keeps the list to root boxes; `onAppear` and bindings change nothing |
| BoxList.RunPreserves | MindBoxPackage/Sources/BoxListFeature/BoxList.swift:38-57 | any sequence of actions keeps the store valid and the list to root boxes |
| BoxList.RootsInvariant | MindBoxPackage/Sources/BoxListFeature/BoxList.swift:20-50 | from the initial list, the list holds only root boxes after any sequence of actions |
| ThoughtList.Init | MindBoxPackage/Sources/ThoughtListFeature/ThoughtList.swift:22-26 | the list is the thoughts handed in, nothing selected |
| ThoughtList.CreateNewThought | MindBoxPackage/Sources/ThoughtListFeature/ThoughtList.swift:50-55 | a default thought in the list's box is appended to both the store and the list; a list all in the box stays so |
| ThoughtList.Reduce | MindBoxPackage/Sources/ThoughtListFeature/ThoughtList.swift:44-72 | the box never changes; selecting a thought emits the delegate with the same id and changes nothing |
| NewKeyword.Init | MindBoxPackage/Sources/Components/NewKeyword.swift:18-24 | the panel starts with royal purple |
| NewKeyword.CreateNewKeyword | MindBoxPackage/Sources/Components/NewKeyword.swift:48-56 | an empty term changes nothing and emits nothing; otherwise the store holds a keyword under the new id named by the term, in the chosen colour, tagging nothing and not expanded, other keywords unchanged, one more keyword for a fresh id, and the delegate is emitted |
| NewKeyword.Reduce | MindBoxPackage/Sources/Components/NewKeyword.swift:37-62 | a colour tap sets the colour; only a successful create emits |
| ThoughtKeywordPicker.Init | MindBoxPackage/Sources/Components/ThoughtKeywordPicker.swift:24-28 | the picker lists the whole keyword store, nothing selected, no search |
| ThoughtKeywordPicker.LinkAll | MindBoxPackage/Sources/Components/ThoughtKeywordPicker.swift:49-54 | in any iteration order, unselected ids are unchanged and each selected id holds a selected keyword with the thought appended |
| ThoughtKeywordPicker.LinkAllDistinct | MindBoxPackage/Sources/Components/ThoughtKeywordPicker.swift:50-53 | when selected keywords have distinct ids, each one is stored as that keyword with the thought appended |
| ThoughtKeywordPicker.AddKeywordsToThought | MindBoxPackage/Sources/Components/ThoughtKeywordPicker.swift:45-58 | an empty selection is a no-op; otherwise the selection is linked, other keywords unchanged, and the popover is dismissed |
| ThoughtKeywordPicker.UpdateSearch | MindBoxPackage/Sources/Components/ThoughtKeywordPicker.swift:86-94 | an empty term reloads the store; a non-empty term keeps exactly the listed keywords whose lower-cased name contains the lower-cased term, as a subsequence of the previous list |
| ThoughtKeywordPicker.UpdateNewKeyword | MindBoxPackage/Sources/Components/ThoughtKeywordPicker.swift:77-84 | the create panel is present exactly when selection and list are empty, and then carries the search term |
| ThoughtKeywordPicker.Reduce | MindBoxPackage/Sources/Components/ThoughtKeywordPicker.swift:41-100 | clearing sets the term to "" without restoring the list; a selection update replaces the selection; a keyword-added delegate asks for an empty search |
| ThoughtKeywordPicker.SearchThenOffer | MindBoxPackage/Sources/Components/ThoughtKeywordPicker.swift:77-94 | a search followed by the update it sends offers the create panel, with the term, exactly when nothing is selected and nothing matched |
| Text.ContainsAt | MindBoxPackage/Sources/Components/ThoughtKeywordPicker.swift:92 | the substring test holds exactly when the text occurs at some position |
| ThoughtTitle.ValidTitle | MindBoxPackage/Sources/ThoughtDetailFeature/ThoughtDetail.swift:72 | the stored title is never empty: an empty draft becomes "New Thought", any other draft is kept |
| ThoughtTitle.ValidTitleIdempotent | MindBoxPackage/Sources/ThoughtDetailFeature/ThoughtDetail.swift:72 | validating a validated title changes nothing |
| ThoughtTitle.Commit | MindBoxPackage/Sources/ThoughtDetailFeature/ThoughtDetail.swift:71-76 | only the title changes, to the validated draft, and the store holds the thought under its id, other thoughts unchanged |
| ThoughtTitle.CommitIdempotent | MindBoxPackage/Sources/ThoughtDetailFeature/ThoughtDetail.swift:71-76 | committing the same draft again changes nothing |
| ThoughtTitle.SetStatus | MindBoxPackage/Sources/ThoughtDetailFeature/ThoughtDetail.swift:78-82 | only the status changes and the store holds the thought under its id, other thoughts unchanged |
| ThoughtDetail.Init | MindBoxPackage/Sources/ThoughtDetailFeature/ThoughtDetail.swift:29-32 | the draft title is the stored title |
| ThoughtDetail.ChangeFocus | MindBoxPackage/Sources/ThoughtDetailFeature/ThoughtDetail.swift:52-56 | a focus change asks for a retitle exactly when focus is lost and the draft differs from the stored title |
| ThoughtDetail.UpdateTitle | MindBoxPackage/Sources/ThoughtDetailFeature/ThoughtDetail.swift:71-76 | the stored title becomes the validated draft and the store entry under the id equals the shared thought; nothing else changes |
| ThoughtDetail.UpdateStatus | MindBoxPackage/Sources/ThoughtDetailFeature/ThoughtDetail.swift:78-82 | only the status changes and the store entry under the id equals the shared thought |
| ThoughtDetail.Reduce | MindBoxPackage/Sources/ThoughtDetailFeature/ThoughtDetail.swift:48-86 | the picker button presents a picker over the same thought; gaining focus, the theme button and destination actions change nothing |
| ThoughtDetail.FocusLossCommitsTitle | MindBoxPackage/Sources/ThoughtDetailFeature/ThoughtDetail.swift:52-76 | losing focus with an edited draft, then handling the retitle, stores the validated draft under the thought's id |
| ThoughtDetail.RetitleIdempotent | MindBoxPackage/Sources/ThoughtDetailFeature/ThoughtDetail.swift:71-76 | a second retitle changes nothing |
| ThoughtDetail.CommittedDraftIsQuiet | MindBoxPackage/Sources/ThoughtDetailFeature/ThoughtDetail.swift:52-76 | after a non-empty draft is committed, losing focus asks for nothing |
| ListThoughtDetail.Init | MindBoxPackage/Sources/ThoughtListFeature/ThoughtDetail.swift:23-26 | the draft title is the stored title |
| ListThoughtDetail.Reduce | MindBoxPackage/Sources/ThoughtListFeature/ThoughtDetail.swift:39-64 | a retitle fires only on focus loss with a changed draft; it stores the validated draft under the id, other thoughts unchanged; the theme button changes nothing |
| ListThoughtDetail.TypingThenBlur | MindBoxPackage/Sources/ThoughtListFeature/ThoughtDetail.swift:43-47 | typing never writes the store, and the following focus loss asks for a retitle exactly when the draft differs from the stored title |
| KeywordsCollection.Buttons | MindBoxPackage/Sources/ThoughtDetailFeature/ThoughtKeywordsCollectionView.swift:174-183 | the dialog offers cancel, then a confirm carrying the dialog's keyword and flag |
| KeywordsCollection.Init | MindBoxPackage/Sources/ThoughtDetailFeature/ThoughtKeywordsCollectionView.swift:36-40 | the view is exactly the stored keywords on the thought, in store order, with nothing presented |
| KeywordsCollection.Confirm | MindBoxPackage/Sources/ThoughtDetailFeature/ThoughtKeywordsCollectionView.swift:67-81 | the dialog closes and the keyword leaves the view; the stored thought equals the shared thought; destroy removes the keyword's id, otherwise the stored record is the dialog's copy unlinked from the thought; other keywords and thoughts unchanged |
| KeywordsCollection.OpenWindow | MindBoxPackage/Sources/ThoughtDetailFeature/ThoughtKeywordsCollectionView.swift:86-106 | on macOS with a parsable string the reducer sends itself the window URL; otherwise nothing; never a data change |
| KeywordsCollection.Reduce | MindBoxPackage/Sources/ThoughtDetailFeature/ThoughtKeywordsCollectionView.swift:52-118 | the menu opens a dialog with the same keyword and flag and changes no data; cancel only closes it; opening a window URL records it and hands it to the workspace |
| KeywordsCollection.ConfirmLeavesView | MindBoxPackage/Sources/ThoughtDetailFeature/ThoughtKeywordsCollectionView.swift:67-81 | after either confirmation, a view rebuilt from the store does not show the keyword |
| KeywordsCollection.MenuThenConfirm | MindBoxPackage/Sources/ThoughtDetailFeature/ThoughtKeywordsCollectionView.swift:59-81 | the destructive button of the dialog a menu tap opened confirms on the same keyword and flag |
| KeywordsCollection.OpenForKeywordNamesIt | MindBoxPackage/Sources/ThoughtDetailFeature/ThoughtKeywordsCollectionView.swift:86-92 | the URL sent for a keyword carries its id text and differs from the unfocused window's URL |
| ListKeywordsCollection.Init | MindBoxPackage/Sources/ThoughtListFeature/ThoughtKeywordsCollectionView.swift:34-38 | the view is exactly the stored keywords on the thought, in store order |
| ListKeywordsCollection.Reduce | MindBoxPackage/Sources/ThoughtListFeature/ThoughtKeywordsCollectionView.swift:48-77 | no action changes the store, the thought or the view; the menu opens the dialog for the keyword; cancel and confirm both close it; showing all thoughts changes nothing |
| ListKeywordsCollection.MenuThenAnswer | MindBoxPackage/Sources/ThoughtListFeature/ThoughtKeywordsCollectionView.swift:55-66 | opening the dialog and answering it either way returns to the starting state |
| KeywordRow.Init | MindBoxPackage/Sources/KeywordListFeature/KeywordRow.swift:23-27 | the row lists exactly the stored thoughts the keyword tags, in store order, without repeats |
| KeywordRow.ToggleExpanded | MindBoxPackage/Sources/KeywordListFeature/KeywordRow.swift:65-69 | only the expansion flag flips and the store holds the row's keyword under its id, other keywords unchanged |
| KeywordRow.UpdateThoughts | MindBoxPackage/Sources/KeywordListFeature/KeywordRow.swift:71-74 | the list is recomputed from the current thought store with the row's own keyword |
| KeywordRow.Reduce | MindBoxPackage/Sources/KeywordListFeature/KeywordRow.swift:39-77 | the delete menu and "open all" change nothing; appearing starts observing the keyword's record |
| KeywordRow.ToggleTwice | MindBoxPackage/Sources/KeywordListFeature/KeywordRow.swift:65-69 | toggling twice restores the row and stores the original keyword |
| KeywordRow.UpdateMatchesInit | MindBoxPackage/Sources/KeywordListFeature/KeywordRow.swift:23-73 | recomputing against the store the row was built from reproduces the row |
| KeywordRow.ToggleKeepsThoughts | MindBoxPackage/Sources/KeywordListFeature/KeywordRow.swift:65-73 | toggling does not change which thoughts a recompute lists |
| KeywordsWindow.SelectedThought | MindBoxPackage/Sources/KeywordsWindowFeature/KeywordsWindow.swift:46-54 | no text, unparseable text or an unknown id resolves to nothing; a parsed id resolves to the stored thought with that id |
| KeywordsWindow.DidSelect | MindBoxPackage/Sources/KeywordsWindowFeature/KeywordsWindow.swift:46-55 | the detail is present exactly when the selection resolves, and then shows that stored thought with its title as the draft |
| KeywordsWindow.Reduce | MindBoxPackage/Sources/KeywordsWindowFeature/KeywordsWindow.swift:36-71 | no selection clears the detail; keyword-list, detail and binding actions leave window state unchanged |
| KeywordsWindow.SelectStoredThought | MindBoxPackage/Sources/KeywordsWindowFeature/KeywordsWindow.swift:46-51 | the id text of a stored thought opens exactly that thought's detail |

## Left out

- Persistence: `@Shared(.fileStorage)`, `appStorage` and `inMemory` are plain values threaded through the reducers. Write failures, notification order and concurrency are not modelled. `URL.keywords` is not part of this model.
- Effects: `.run`, `.publisher`, `dismiss` and `NSWorkspace.open` are effect markers; the window is not opened. The empty `.run` of the earlier collection's confirm is modelled as no effect. Logging is not modelled: the `debugPrint` calls (MindBoxPackage/Sources/ThoughtListFeature/ThoughtDetail.swift:58, MindBoxPackage/Sources/Components/ThoughtKeywordPicker.swift:83) and the publisher's `.print()` (MindBoxPackage/Sources/KeywordListFeature/KeywordRow.swift:56).
- Shared references: a `@Shared` value one feature hands to another is modelled as a separate value in each reducer's state. This covers `$thought` given to the keyword picker and to the keywords collection (MindBoxPackage/Sources/ThoughtDetailFeature/ThoughtDetail.swift:65, :124) and the detail built on `$allThoughts[id:]` in the keywords window (MindBoxPackage/Sources/KeywordsWindowFeature/KeywordsWindow.swift:50-51). In Swift a write through one of them is seen by the others; in the model it is not. So "the stored thought equals the shared thought" holds only for the copy that reducer holds.
- Child composition: children run through `.ifLet` and `Scope` are modelled as separate reducers and not composed with their parents. Presentation dismissal is a no-op in the parents.
- Bindings: only the detail panes' focus and title bindings are modelled, because the reducers react to them. Every other binding action is a no-op in the model. This drops two writes that `BindingReducer` makes in Swift. One is the box name typed into the row's text field (MindBoxPackage/Sources/BoxRowFeature/BoxRow.swift:53, :94), which is the only way these files rename a box. The other is `selectedBoxId` (MindBoxPackage/Sources/BoxListFeature/BoxList.swift:25, :70).
- UUID generation, `Date.now`, `uuidString`, `UUID(uuidString:)`, `lowercased` and `URL(string:)` are uninterpreted parameters in `Environment.Env`. `uppercased` is an uninterpreted function parameter of `Models.StatusDescription`. Fresh ids are hypotheses of the contracts, not guarantees.
- `Keyword` and `KeywordThemeColor` are not defined in the modelled files. `Keyword` is inferred as {id, name, color, thoughtIds, expanded}, with `expanded` false for a new keyword. Only the royal-purple shade is named; other shades are an opaque tag.
- KeywordsCollection.Confirm: the line `state.thought.keywords.removeAll` (MindBoxPackage/Sources/ThoughtDetailFeature/ThoughtKeywordsCollectionView.swift:70) is not modelled, because `Thought` has no `keywords` field. The thought written back is the shared thought unchanged.
- ThoughtKeywordPicker.LinkAll: when two selected copies share an id, the contract only says the stored record is one of them. Set iteration order is unspecified, so the source fixes nothing more.
- The SwiftData variant (MindBoxDatabase.swift, RecursiveBoxRow.swift), all SwiftUI views, panels and window code, the text-view wrappers and the RTF conversion are not part of this model.
- The dialogs' title and message texts are view text and are not modelled.
- View-only files (application entry, app feature, keyword list, keyword thought row, box-row theme view, thought row, package manifest) are not part of this model.
- The KeywordList state in the keywords window is not modelled; its actions are no-ops at window level.
- Strings are compared scalar by scalar. Swift compares `String` values, and evaluates `contains`, by Characters under canonical equivalence; the model does not. So the keyword search filter (MindBoxPackage/Sources/Components/ThoughtKeywordPicker.swift:92), the draft-title comparison (MindBoxPackage/Sources/ThoughtDetailFeature/ThoughtDetail.swift:53, MindBoxPackage/Sources/ThoughtListFeature/ThoughtDetail.swift:44) and the empty-term guard (MindBoxPackage/Sources/Components/NewKeyword.swift:49) can differ from Swift when two texts are canonically equivalent but spelled with different scalars.

## Behaviour of the program worth noting

- Deleting a box removes exactly one record and does not cascade to sub-boxes or thoughts (MindBoxPackage/Sources/BoxRowFeature/BoxRow.swift:65-69).
- No operation re-parents a box, so no parent change is checked for cycles.
- An empty keyword name is a silent no-op (MindBoxPackage/Sources/Components/NewKeyword.swift:48-56).
- Deleting a thought is not an operation of these reducers, so no keyword is cleaned up after one.

=== FILE: box_list.dfy ===
/** The list of root boxes shown in the main window's sidebar. */
module BoxList {
  import opened Options
  import opened Models
  import opened IdentifiedArray
  import opened EntityStore
  import opened Environment

  /** The local list of root boxes (the selection and refresh markers are not modelled). */
  datatype State = State(boxes: seq<Box>)

  /** Every box of the list is a root. */
  predicate AllRoots(boxes: seq<Box>) {
    forall i :: 0 <= i < |boxes| ==> boxes[i].parentBoxId == None
  }

  /** `State.init()`: exactly the stored root boxes, in store order. */
  function Init(db: Store): (s: State)
    requires Valid(db)
    ensures AllRoots(s.boxes)
    ensures forall b :: b in db.boxes && b.parentBoxId == None ==> b in s.boxes
    ensures forall b :: b in s.boxes ==> b in db.boxes
    ensures IsSubsequence(s.boxes, db.boxes)
    ensures IdsUnique(s.boxes, BoxKey)
  {
    FilterIdsUnique(db.boxes, BoxKey, IsRoot);
    State(RootBoxes(db.boxes))
  }

  datatype Action = Binding | CreateNewBoxButtonTapped | OnAppear

  datatype Step = Step(state: State, store: Store)

  /**
    Creates a root box with default fields, stores it under its id and appends
    the same box to the local list.
  */
  function CreateNewBox(st: State, db: Store, env: Env): (r: Step)
    requires Valid(db) && IdsUnique(st.boxes, BoxKey)
    ensures Valid(r.store) && IdsUnique(r.state.boxes, BoxKey)
    ensures Find(r.store.boxes, BoxKey, env.uuid).Some?
    ensures var b := Find(r.store.boxes, BoxKey, env.uuid).value;
            && b.parentBoxId == None && b.name == "New Box"
            && b.color == PastelColor(LemonSorbet) && b.updateDate == env.now
            && (env.uuid !in Ids(st.boxes, BoxKey) ==> r.state.boxes == st.boxes + [b])
    ensures env.uuid in Ids(st.boxes, BoxKey) ==> r.state.boxes == st.boxes
    ensures forall id :: id != env.uuid ==> Find(r.store.boxes, BoxKey, id) == Find(db.boxes, BoxKey, id)
    ensures r.store.thoughts == db.thoughts && r.store.keywords == db.keywords
    ensures AllRoots(st.boxes) ==> AllRoots(r.state.boxes)
  {
    var newBox := NewBox(env.uuid, env.now, None);
    Step(State(Append(st.boxes, BoxKey, newBox)), db.(boxes := Upsert(db.boxes, BoxKey, newBox)))
  }

  function Reduce(st: State, db: Store, env: Env, a: Action): (r: Step)
    requires Valid(db) && IdsUnique(st.boxes, BoxKey)
    ensures Valid(r.store) && IdsUnique(r.state.boxes, BoxKey)
    ensures a.Binding? || a.OnAppear? ==> r == Step(st, db)
    ensures AllRoots(st.boxes) ==> AllRoots(r.state.boxes)
  {
    match a
    case Binding => Step(st, db)
    case CreateNewBoxButtonTapped => CreateNewBox(st, db, env)
    case OnAppear => Step(st, db)
  }

  /** From the initial list, any sequence of actions keeps the list to root boxes. */
  lemma {:induction false} RootsInvariant(db: Store, envs: seq<Env>, actions: seq<Action>)
    requires Valid(db)
    requires |envs| == |actions|
    ensures var (s, d) := Run(Init(db), db, envs, actions);
            AllRoots(s.boxes) && Valid(d) && IdsUnique(s.boxes, BoxKey)
  {
    RunPreserves(Init(db), db, envs, actions);
  }

  /** Runs a sequence of actions, each with its environment. */
  function Run(st: State, db: Store, envs: seq<Env>, actions: seq<Action>): (State, Store)
    requires Valid(db) && IdsUnique(st.boxes, BoxKey)
    requires |envs| == |actions|
    decreases |actions|
  {
    if |actions| == 0 then (st, db)
    else
      var r := Reduce(st, db, envs[0], actions[0]);
      Run(r.state, r.store, envs[1..], actions[1..])
  }

  lemma {:induction false} RunPreserves(st: State, db: Store, envs: seq<Env>, actions: seq<Action>)
    requires Valid(db) && IdsUnique(st.boxes, BoxKey)
    requires |envs| == |actions|
    ensures var (s, d) := Run(st, db, envs, actions);
            Valid(d) && IdsUnique(s.boxes, BoxKey) && (AllRoots(st.boxes) ==> AllRoots(s.boxes))
    decreases |actions|
  {
    if |actions| > 0 {
      var r := Reduce(st, db, envs[0], actions[0]);
      RunPreserves(r.state, r.store, envs[1..], actions[1..]);
    }
  }
}

=== FILE: box_row.dfy ===
/** One row of the box tree: sub-box creation, deletion and the rename focus. */
module BoxRow {
  import opened Options
  import opened Models
  import opened IdentifiedArray
  import opened EntityStore
  import opened Environment

  datatype Field = Rename

  /** The delete confirmation dialog; declared by the feature but never presented by its reducer. */
  datatype Destination = DeleteConfirmDialog

  datatype State = State(box: Box, focus: Option<Field>, destination: Option<Destination>)

  function Init(box: Box): (s: State)
    ensures s.box == box && s.focus == None && s.destination == None
  {
    State(box, None, None)
  }

  datatype Action = Binding | CreateSubBoxButtonTapped | DeleteButtonTapped | Destination | RenameButtonTapped

  /** The deferred work of a delete: the `.run` closure capturing the box's id. */
  datatype Effect = NoEffect | DeleteBoxRecord(id: Id)

  datatype Step = Step(state: State, store: Store, effect: Effect)

  /** Appends a default-named, default-coloured child of the row's box to the box store. */
  function CreateSubBox(st: State, db: Store, env: Env): (r: Step)
    requires Valid(db)
    ensures Valid(r.store)
    ensures r.state == st && r.effect == NoEffect
    ensures r.store.thoughts == db.thoughts && r.store.keywords == db.keywords
    ensures env.uuid !in Ids(db.boxes, BoxKey) ==>
              && |r.store.boxes| == |db.boxes| + 1
              && r.store.boxes[..|db.boxes|] == db.boxes
              && Find(r.store.boxes, BoxKey, env.uuid) == Some(r.store.boxes[|db.boxes|])
              && r.store.boxes[|db.boxes|].parentBoxId == Some(st.box.id)
              && r.store.boxes[|db.boxes|].name == "New Box"
              && r.store.boxes[|db.boxes|].color == PastelColor(LemonSorbet)
              && r.store.boxes[|db.boxes|].updateDate == env.now
    ensures env.uuid in Ids(db.boxes, BoxKey) ==> r.store == db
    ensures forall id :: id != env.uuid ==> Find(r.store.boxes, BoxKey, id) == Find(db.boxes, BoxKey, id)
  {
    var newBox := NewBox(env.uuid, env.now, Some(st.box.id));
    Step(st, db.(boxes := Append(db.boxes, BoxKey, newBox)), NoEffect)
  }

  /** Runs a deferred effect against the store. */
  function Perform(e: Effect, db: Store): (r: Store)
    requires Valid(db)
    ensures Valid(r)
    ensures e.NoEffect? ==> r == db
    ensures e.DeleteBoxRecord? ==> e.id !in Ids(r.boxes, BoxKey)
    ensures e.DeleteBoxRecord? ==> forall id :: id != e.id ==> Find(r.boxes, BoxKey, id) == Find(db.boxes, BoxKey, id)
    ensures r.thoughts == db.thoughts && r.keywords == db.keywords
  {
    match e
    case NoEffect => db
    case DeleteBoxRecord(id) => db.(boxes := Remove(db.boxes, BoxKey, id))
  }

  function Reduce(st: State, db: Store, env: Env, a: Action): (r: Step)
    requires Valid(db)
    ensures Valid(r.store)
    ensures a.Binding? || a.Destination? ==> r == Step(st, db, NoEffect)
    ensures a.DeleteButtonTapped? ==> r == Step(st, db, DeleteBoxRecord(st.box.id))
    ensures a.RenameButtonTapped? ==> r == Step(st.(focus := Some(Rename)), db, NoEffect)
  {
    match a
    case Binding => Step(st, db, NoEffect)
    case CreateSubBoxButtonTapped => CreateSubBox(st, db, env)
    case DeleteButtonTapped => Step(st, db, DeleteBoxRecord(st.box.id))
    case Destination => Step(st, db, NoEffect)
    case RenameButtonTapped => Step(st.(focus := Some(Rename)), db, NoEffect)
  }

  /**
    Deleting a box removes exactly its own record: child boxes keep their
    (now dangling) parent id and the thoughts of the box stay in the store.
  */
  lemma DeleteDoesNotCascade(st: State, db: Store, env: Env, child: Box)
    requires Valid(db)
    requires child in db.boxes && child.id != st.box.id
    ensures var r := Reduce(st, db, env, DeleteButtonTapped);
            var after := Perform(r.effect, r.store);
            && st.box.id !in Ids(after.boxes, BoxKey)
            && child in after.boxes
            && after.thoughts == db.thoughts
            && |after.boxes| == |db.boxes| - (if st.box.id in Ids(db.boxes, BoxKey) then 1 else 0)
  {
    var k :| 0 <= k < |db.boxes| && db.boxes[k] == child;
    FindElement(db.boxes, BoxKey, k);
    var after := Perform(DeleteBoxRecord(st.box.id), db);
    assert Find(after.boxes, BoxKey, child.id) == Some(child);
  }
}

=== FILE: box_row_theme_picker.dfy ===
/** The earlier theme-colour picker of the box-row feature (no show-picker flag). */
module BoxRowThemePicker {
  import opened Options
  import opened Models
  import opened IdentifiedArray
  import opened EntityStore

  datatype State = State(colors: seq<seq<BoxThemeColor>>, box: Box)

  datatype Action = DidSelectColor(color: BoxThemeColor)

  datatype Step = Step(state: State, store: Store)

  function Reduce(st: State, db: Store, a: Action): (r: Step)
    requires Valid(db)
    ensures Valid(r.store)
    ensures a.color == st.box.color ==> r == Step(st, db)
    ensures r.state == st.(box := st.box.(color := a.color))
    ensures a.color != st.box.color ==> Find(r.store.boxes, BoxKey, st.box.id) == Some(r.state.box)
    ensures forall id :: id != st.box.id ==> Find(r.store.boxes, BoxKey, id) == Find(db.boxes, BoxKey, id)
    ensures r.store.thoughts == db.thoughts && r.store.keywords == db.keywords
  {
    var (b, boxes) := SelectColor(st.box, db.boxes, a.color);
    Step(st.(box := b), db.(boxes := boxes))
  }

  /** Repeating a selection changes nothing further. */
  lemma ReduceIdempotent(st: State, db: Store, a: Action)
    requires Valid(db)
    ensures var r := Reduce(st, db, a);
            Reduce(r.state, r.store, a) == r
  {
  }
}

=== FILE: box_theme_picker.dfy ===
/** The theme-colour picker of the shared components package. */
module BoxThemePicker {
  import opened Options
  import opened Models
  import opened IdentifiedArray
  import opened EntityStore

  datatype State = State(colors: seq<seq<BoxThemeColor>>, box: Box, showPicker: bool)

  /** `State.init(box:)`: the palette sections, the box, the picker hidden. */
  function Init(box: Box): (s: State)
    ensures s.box == box && !s.showPicker
    ensures |s.colors| == 2 && s.colors[0] + s.colors[1] == AllCases()
  {
    State(SectionCases(), box, false)
  }

  datatype Action = Binding | DidSelectColor(color: BoxThemeColor) | ShowPickerButtonTapped

  /** The reducer never emits an effect, so a step is the new state and store. */
  datatype Step = Step(state: State, store: Store)

  /** Selecting a colour: a no-op for the current colour, otherwise a recolour written through to the box store. */
  function ChooseColor(st: State, db: Store, c: BoxThemeColor): (r: Step)
    requires Valid(db)
    ensures Valid(r.store)
    ensures c == st.box.color ==> r == Step(st, db)
    ensures r.state == st.(box := st.box.(color := c))
    ensures c != st.box.color ==> Find(r.store.boxes, BoxKey, st.box.id) == Some(r.state.box)
    ensures forall id :: id != st.box.id ==> Find(r.store.boxes, BoxKey, id) == Find(db.boxes, BoxKey, id)
    ensures r.store.thoughts == db.thoughts && r.store.keywords == db.keywords
  {
    var (b, boxes) := SelectColor(st.box, db.boxes, c);
    Step(st.(box := b), db.(boxes := boxes))
  }

  /** Selecting the same colour twice is the same as selecting it once. */
  lemma ChooseColorIdempotent(st: State, db: Store, c: BoxThemeColor)
    requires Valid(db)
    ensures var r := ChooseColor(st, db, c);
            ChooseColor(r.state, r.store, c) == r
  {
  }

  function Reduce(st: State, db: Store, a: Action): (r: Step)
    requires Valid(db)
    ensures Valid(r.store)
    ensures a.Binding? ==> r == Step(st, db)
    ensures a.ShowPickerButtonTapped? ==> r == Step(st.(showPicker := true), db)
    ensures a.DidSelectColor? ==> r.state.showPicker == st.showPicker && r.state.colors == st.colors
  {
    match a
    case Binding => Step(st, db)
    case DidSelectColor(c) => ChooseColor(st, db, c)
    case ShowPickerButtonTapped => Step(st.(showPicker := true), db)
  }
}

=== FILE: constants.dfy ===
/** The URL strings that identify the application's windows. */
module Constants {
  import opened Options

  const Scheme := "myapp://"
  const MainWindowPrefix := "MindBox/MainWindow"
  const KeywordsWindowPrefix := "MindBox/KeywordsWindow"

  /** A window: the main window, or the keywords window optionally focused on one keyword. */
  datatype WindowTag = MainWindow | KeywordsWindow(keywordIdString: Option<string>)

  /** `WindowTag.windowString`. */
  function WindowString(t: WindowTag): (r: string)
    ensures t.MainWindow? ==> r == "myapp://MindBox/MainWindow"
    ensures t == KeywordsWindow(None) ==> r == "myapp://MindBox/KeywordsWindow"
    ensures t.KeywordsWindow? && t.keywordIdString.Some? ==>
              r == "myapp://MindBox/KeywordsWindow" + "/" + t.keywordIdString.value
  {
    match t
    case MainWindow => Scheme + MainWindowPrefix
    case KeywordsWindow(Some(s)) => Scheme + KeywordsWindowPrefix + "/" + s
    case KeywordsWindow(None) => Scheme + KeywordsWindowPrefix
  }

  /** The unfocused keywords-window string is a strict prefix of every focused one. */
  lemma KeywordsWindowStrictPrefix(s: string)
    ensures WindowString(KeywordsWindow(None)) < WindowString(KeywordsWindow(Some(s)))
  {
    var n := WindowString(KeywordsWindow(None));
    var f := WindowString(KeywordsWindow(Some(s)));
    assert f[..|n|] == n;
  }

  /** The keyword id text is what follows the unfocused string and the separating slash. */
  lemma KeywordIdRecoverable(s: string)
    ensures var n := WindowString(KeywordsWindow(None));
            WindowString(KeywordsWindow(Some(s)))[|n| + 1..] == s
  {
  }

  /** Different windows have different strings. */
  lemma WindowStringInjective(a: WindowTag, b: WindowTag)
    requires WindowString(a) == WindowString(b)
    ensures a == b
  {
    if a.KeywordsWindow? && b.KeywordsWindow? && a.keywordIdString.Some? && b.keywordIdString.Some? {
      KeywordIdRecoverable(a.keywordIdString.value);
      KeywordIdRecoverable(b.keywordIdString.value);
    }
  }

  /** The main-window string is no keywords-window string. */
  lemma MainWindowDistinct(x: Option<string>)
    ensures WindowString(MainWindow) != WindowString(KeywordsWindow(x))
  {
    if WindowString(MainWindow) == WindowString(KeywordsWindow(x)) {
      WindowStringInjective(MainWindow, KeywordsWindow(x));
    }
  }
}

=== FILE: entity_store.dfy ===
/**
  The three file-backed collections (boxes, thoughts, keywords) held as plain
  values, the derived views the features compute from them, and the record
  edits more than one feature shares.
*/
module EntityStore {
  import opened Options
  import opened Models
  import opened IdentifiedArray

  datatype Store = Store(boxes: seq<Box>, thoughts: seq<Thought>, keywords: seq<Keyword>)

  /** Each collection keeps its ids unique. */
  predicate Valid(db: Store) {
    && IdsUnique(db.boxes, BoxKey)
    && IdsUnique(db.thoughts, ThoughtKey)
    && IdsUnique(db.keywords, KeywordKey)
  }

  // ---------------------------------------------------------------- derived views

  predicate IsRoot(b: Box) {
    b.parentBoxId.None?
  }

  /** The boxes with no parent, in store order. */
  function RootBoxes(boxes: seq<Box>): (r: seq<Box>)
    ensures forall b :: b in r ==> b in boxes && b.parentBoxId == None
    ensures forall b :: b in boxes && b.parentBoxId == None ==> b in r
    ensures IsSubsequence(r, boxes)
  {
    Filter(boxes, IsRoot)
  }

  /** The keywords that tag the thought `thoughtId`, in store order. */
  function KeywordsOnThought(keywords: seq<Keyword>, thoughtId: Id): (r: seq<Keyword>)
    ensures forall k :: k in r ==> k in keywords && thoughtId in k.thoughtIds
    ensures forall k :: k in keywords && thoughtId in k.thoughtIds ==> k in r
    ensures IsSubsequence(r, keywords)
  {
    Filter(keywords, (k: Keyword) => thoughtId in k.thoughtIds)
  }

  /** The view of a keyword store with unique ids has unique ids. */
  lemma KeywordsOnThoughtUnique(keywords: seq<Keyword>, thoughtId: Id)
    requires IdsUnique(keywords, KeywordKey)
    ensures IdsUnique(KeywordsOnThought(keywords, thoughtId), KeywordKey)
  {
    FilterIdsUnique(keywords, KeywordKey, (k: Keyword) => thoughtId in k.thoughtIds);
  }

  /** The stored thoughts `keyword` tags, in store order (not in `thoughtIds` order). */
  function ThoughtsForKeyword(thoughts: seq<Thought>, keyword: Keyword): (r: seq<Thought>)
    ensures forall t :: t in r ==> t in thoughts && t.id in keyword.thoughtIds
    ensures forall t :: t in thoughts && t.id in keyword.thoughtIds ==> t in r
    ensures IsSubsequence(r, thoughts)
  {
    Filter(thoughts, (t: Thought) => t.id in keyword.thoughtIds)
  }

  /** A repeated id in `thoughtIds` never repeats a thought: the view has unique ids. */
  lemma ThoughtsForKeywordUnique(thoughts: seq<Thought>, keyword: Keyword)
    requires IdsUnique(thoughts, ThoughtKey)
    ensures IdsUnique(ThoughtsForKeyword(thoughts, keyword), ThoughtKey)
  {
    FilterIdsUnique(thoughts, ThoughtKey, (t: Thought) => t.id in keyword.thoughtIds);
  }

  /** The view depends only on which ids are listed, not on their order or multiplicity. */
  lemma ThoughtsForKeywordIgnoresRepeats(thoughts: seq<Thought>, k1: Keyword, k2: Keyword)
    requires forall x :: x in k1.thoughtIds <==> x in k2.thoughtIds
    ensures ThoughtsForKeyword(thoughts, k1) == ThoughtsForKeyword(thoughts, k2)
  {
    FilterAgree(thoughts, (t: Thought) => t.id in k1.thoughtIds, (t: Thought) => t.id in k2.thoughtIds);
  }

  /** The subscript read `thoughts[id: id]`. */
  function ThoughtById(thoughts: seq<Thought>, id: Id): (r: Option<Thought>)
    requires IdsUnique(thoughts, ThoughtKey)
    ensures r.Some? <==> exists i :: 0 <= i < |thoughts| && thoughts[i].id == id
    ensures r.Some? ==> r.value in thoughts && r.value.id == id
    ensures forall i :: 0 <= i < |thoughts| && thoughts[i].id == id ==> r == Some(thoughts[i])
  {
    InIds(thoughts, ThoughtKey, id);
    forall i | 0 <= i < |thoughts| && thoughts[i].id == id
      ensures Find(thoughts, ThoughtKey, id) == Some(thoughts[i])
    {
      FindElement(thoughts, ThoughtKey, i);
    }
    Find(thoughts, ThoughtKey, id)
  }

  // ---------------------------------------------------------------- shared edits

  /** The keyword with `thoughtId` appended to its thought list, duplicates allowed. */
  function Linked(k: Keyword, thoughtId: Id): (r: Keyword)
    ensures r.(thoughtIds := k.thoughtIds) == k
    ensures |r.thoughtIds| == |k.thoughtIds| + 1
    ensures r.thoughtIds[..|k.thoughtIds|] == k.thoughtIds
    ensures r.thoughtIds[|k.thoughtIds|] == thoughtId
    ensures multiset(r.thoughtIds)[thoughtId] == multiset(k.thoughtIds)[thoughtId] + 1
  {
    var r := k.(thoughtIds := k.thoughtIds + [thoughtId]);
    assert r.thoughtIds[..|k.thoughtIds|] == k.thoughtIds;
    r
  }

  /** The keyword with every occurrence of `thoughtId` removed from its thought list. */
  function Unlinked(k: Keyword, thoughtId: Id): (r: Keyword)
    ensures r.(thoughtIds := k.thoughtIds) == k
    ensures thoughtId !in r.thoughtIds
    ensures forall x :: x != thoughtId ==> multiset(r.thoughtIds)[x] == multiset(k.thoughtIds)[x]
    ensures IsSubsequence(r.thoughtIds, k.thoughtIds)
  {
    var ids := Filter(k.thoughtIds, (x: Id) => x != thoughtId);
    k.(thoughtIds := ids)
  }

  /**
    Unlinking a thought after one link of it gives what unlinking alone gives:
    the link leaves no trace.
  */
  lemma UnlinkAfterLink(k: Keyword, thoughtId: Id)
    ensures Unlinked(Linked(k, thoughtId), thoughtId) == Unlinked(k, thoughtId)
  {
    var p := (x: Id) => x != thoughtId;
    FilterConcat(k.thoughtIds, [thoughtId], p);
    assert Filter([thoughtId], p) == [];
    assert Linked(k, thoughtId).thoughtIds == k.thoughtIds + [thoughtId];
  }

  /** Linking a thought the keyword did not tag, then unlinking it, restores the keyword. */
  lemma UnlinkRestores(k: Keyword, thoughtId: Id)
    requires thoughtId !in k.thoughtIds
    ensures Unlinked(Linked(k, thoughtId), thoughtId) == k
  {
    UnlinkAfterLink(k, thoughtId);
    var p := (x: Id) => x != thoughtId;
    FilterKeepsAll(k.thoughtIds, p);
  }

  /**
    The colour selection both theme pickers perform: choosing the current colour
    changes nothing; another colour is written into the box and the box is
    stored under its id.
  */
  function SelectColor(box: Box, boxes: seq<Box>, c: BoxThemeColor): (r: (Box, seq<Box>))
    requires IdsUnique(boxes, BoxKey)
    ensures IdsUnique(r.1, BoxKey)
    ensures r.0.color == c && r.0.(color := box.color) == box
    ensures c == box.color ==> r.1 == boxes
    ensures c != box.color ==> Find(r.1, BoxKey, box.id) == Some(r.0)
    ensures forall id :: id != box.id ==> Find(r.1, BoxKey, id) == Find(boxes, BoxKey, id)
  {
    if box.color == c then (box, boxes)
    else
      var b := box.(color := c);
      (b, Upsert(boxes, BoxKey, b))
  }
}

=== FILE: environment.dfy ===
/**
  The collaborators the reducers call but whose behaviour this model leaves
  uninterpreted: the UUID generator, the clock, UUID/string conversion, Unicode
  lower-casing, URL parsing and the platform.
*/
module Environment {
  import opened Options
  import opened Models

  datatype Env = Env(
    /** The value the UUID generator returns at this step. */
    uuid: Id,
    /** The value of `Date.now` at this step. */
    now: Date,
    /** `UUID.uuidString`. */
    uuidString: Id -> string,
    /** `UUID(uuidString:)`, which fails on malformed text. */
    parseUuid: string -> Option<Id>,
    /** `String.lowercased()`. */
    lowercased: string -> string,
    /** Whether `URL(string:)` accepts the text. */
    urlParses: string -> bool,
    /** Whether the application runs on macOS (`#if os(macOS)`). */
    isMacOS: bool)
}

=== FILE: identified_array.dfy ===
/**
  The identified collection every store of the application is kept in: an
  ordered array whose elements carry pairwise distinct ids. The element type is
  generic; `key` extracts an element's id.

  Only the operations the reducers use are modelled: lookup by id, the
  subscript assignment `xs[id: k] = v` (upsert), `remove(id:)`, `append` and
  `filter`.
*/
module IdentifiedArray {
  import opened Options

  /** The ids of `xs`, in array order. */
  function Ids<T, K>(xs: seq<T>, key: T -> K): (r: seq<K>)
    ensures |r| == |xs|
    decreases |xs|
  {
    if |xs| == 0 then [] else [key(xs[0])] + Ids(xs[1..], key)
  }

  /** The collection's invariant: no two elements share an id. */
  predicate IdsUnique<T, K(==)>(xs: seq<T>, key: T -> K)
    decreases |xs|
  {
    |xs| == 0 || (key(xs[0]) !in Ids(xs[1..], key) && IdsUnique(xs[1..], key))
  }

  /** The i-th id is the id of the i-th element. */
  lemma {:induction false} IdsIndex<T, K>(xs: seq<T>, key: T -> K, i: int)
    requires 0 <= i < |xs|
    ensures Ids(xs, key)[i] == key(xs[i])
    decreases |xs|
  {
    if i > 0 {
      IdsIndex(xs[1..], key, i - 1);
    }
  }

  /** An id is among `Ids(xs, key)` exactly when some element carries it. */
  lemma {:induction false} InIds<T, K>(xs: seq<T>, key: T -> K, k: K)
    ensures k in Ids(xs, key) <==> exists i :: 0 <= i < |xs| && key(xs[i]) == k
    decreases |xs|
  {
    if |xs| > 0 {
      InIds(xs[1..], key, k);
      if k in Ids(xs[1..], key) {
        var i :| 0 <= i < |xs[1..]| && key(xs[1..][i]) == k;
        assert key(xs[i + 1]) == k;
      }
      if exists i :: 0 <= i < |xs| && key(xs[i]) == k {
        var i :| 0 <= i < |xs| && key(xs[i]) == k;
        if i > 0 {
          assert key(xs[1..][i - 1]) == k;
        }
      }
    }
  }

  /** The recursive uniqueness invariant agrees with the pairwise statement of it. */
  lemma {:induction false} IdsUniquePairwise<T, K>(xs: seq<T>, key: T -> K)
    ensures IdsUnique(xs, key) <==> forall i, j :: 0 <= i < j < |xs| ==> key(xs[i]) != key(xs[j])
    decreases |xs|
  {
    if |xs| > 0 {
      IdsUniquePairwise(xs[1..], key);
      InIds(xs[1..], key, key(xs[0]));
      if IdsUnique(xs, key) {
        forall i, j | 0 <= i < j < |xs|
          ensures key(xs[i]) != key(xs[j])
        {
          assert xs[j] == xs[1..][j - 1];
          if i > 0 {
            assert xs[i] == xs[1..][i - 1];
          }
        }
      }
      if forall i, j :: 0 <= i < j < |xs| ==> key(xs[i]) != key(xs[j]) {
        forall i, j | 0 <= i < j < |xs[1..]|
          ensures key(xs[1..][i]) != key(xs[1..][j])
        {
          assert key(xs[i + 1]) != key(xs[j + 1]);
        }
      }
    }
  }

  /** The subscript read `xs[id: k]`: the element with id `k`, if any. */
  function Find<T, K(==)>(xs: seq<T>, key: T -> K, k: K): (r: Option<T>)
    ensures r.None? <==> k !in Ids(xs, key)
    ensures r.Some? ==> r.value in xs && key(r.value) == k
    decreases |xs|
  {
    if |xs| == 0 then None
    else if key(xs[0]) == k then Some(xs[0])
    else Find(xs[1..], key, k)
  }

  /** In a collection with unique ids, every element is what a lookup by its id finds. */
  lemma {:induction false} FindElement<T, K>(xs: seq<T>, key: T -> K, i: int)
    requires IdsUnique(xs, key)
    requires 0 <= i < |xs|
    ensures Find(xs, key, key(xs[i])) == Some(xs[i])
    decreases |xs|
  {
    if i > 0 {
      assert xs[1..][i - 1] == xs[i];
      IdsIndex(xs[1..], key, i - 1);
      FindElement(xs[1..], key, i - 1);
    }
  }

  /** The position of the first element with id `k`. */
  function IndexOf<T, K(==)>(xs: seq<T>, key: T -> K, k: K): (i: nat)
    requires k in Ids(xs, key)
    ensures i < |xs| && key(xs[i]) == k
    ensures forall j :: 0 <= j < i ==> key(xs[j]) != k
    decreases |xs|
  {
    if key(xs[0]) == k then 0
    else 1 + IndexOf(xs[1..], key, k)
  }

  /** Lookup, ids and uniqueness of an array built by prepending one element. */
  lemma Cons<T, K>(x: T, rest: seq<T>, key: T -> K)
    ensures Ids([x] + rest, key) == [key(x)] + Ids(rest, key)
    ensures IdsUnique([x] + rest, key) <==> key(x) !in Ids(rest, key) && IdsUnique(rest, key)
    ensures forall k :: Find([x] + rest, key, k) == if key(x) == k then Some(x) else Find(rest, key, k)
  {
    assert ([x] + rest)[1..] == rest;
  }

  /**
    The subscript assignment `xs[id: key(v)] = v`: replaces the element with
    `v`'s id in place, or appends `v` at the end when no element has that id.
  */
  function Upsert<T, K(==,!new)>(xs: seq<T>, key: T -> K, v: T): (r: seq<T>)
    requires IdsUnique(xs, key)
    ensures IdsUnique(r, key)
    ensures Find(r, key, key(v)) == Some(v)
    ensures forall k :: k != key(v) ==> Find(r, key, k) == Find(xs, key, k)
    ensures key(v) in Ids(xs, key) ==> |r| == |xs|
    ensures key(v) !in Ids(xs, key) ==> r == xs + [v]
    ensures key(v) in Ids(xs, key) ==> r == xs[IndexOf(xs, key, key(v)) := v]
    decreases |xs|
  {
    if |xs| == 0 then
      Cons(v, [], key);
      [v]
    else
      assert xs == [xs[0]] + xs[1..];
      Cons(xs[0], xs[1..], key);
      if key(xs[0]) == key(v) then
        Cons(v, xs[1..], key);
        assert [v] + xs[1..] == xs[0 := v];
        [v] + xs[1..]
      else
        var rest := Upsert(xs[1..], key, v);
        assert key(xs[0]) !in Ids(rest, key) by {
          assert Find(rest, key, key(xs[0])) == Find(xs[1..], key, key(xs[0]));
        }
        Cons(xs[0], rest, key);
        assert key(v) !in Ids(xs, key) ==> [xs[0]] + rest == xs + [v];
        UpsertTailAt(xs, key, v, rest);
        [xs[0]] + rest
  }

  /** The tail case of `Upsert`: an in-place write behind the head lands one position later. */
  lemma UpsertTailAt<T, K(!new)>(xs: seq<T>, key: T -> K, v: T, rest: seq<T>)
    requires |xs| > 0 && key(xs[0]) != key(v)
    requires key(v) in Ids(xs[1..], key) ==> rest == xs[1..][IndexOf(xs[1..], key, key(v)) := v]
    ensures key(v) in Ids(xs, key) ==> [xs[0]] + rest == xs[IndexOf(xs, key, key(v)) := v]
  {
    if key(v) in Ids(xs, key) {
      assert xs == [xs[0]] + xs[1..];
      Cons(xs[0], xs[1..], key);
      var j := IndexOf(xs[1..], key, key(v));
      assert IndexOf(xs, key, key(v)) == j + 1;
      assert [xs[0]] + rest == xs[j + 1 := v];
    }
  }

  /** Writing the same element twice is the same as writing it once. */
  lemma {:induction false} UpsertIdempotent<T, K(!new)>(xs: seq<T>, key: T -> K, v: T)
    requires IdsUnique(xs, key)
    ensures Upsert(Upsert(xs, key, v), key, v) == Upsert(xs, key, v)
    decreases |xs|
  {
    var once := Upsert(xs, key, v);
    if |xs| > 0 && key(xs[0]) != key(v) {
      Cons(xs[0], xs[1..], key);
      UpsertIdempotent(xs[1..], key, v);
      assert once[0] == xs[0] && once[1..] == Upsert(xs[1..], key, v);
    }
  }

  /** `remove(id: k)`: drops the element with id `k`, if there is one. */
  function Remove<T, K(==,!new)>(xs: seq<T>, key: T -> K, k: K): (r: seq<T>)
    requires IdsUnique(xs, key)
    ensures IdsUnique(r, key)
    ensures k !in Ids(r, key)
    ensures forall k' :: k' != k ==> Find(r, key, k') == Find(xs, key, k')
    ensures k !in Ids(xs, key) ==> r == xs
    ensures k in Ids(xs, key) ==> |r| == |xs| - 1
    ensures forall x :: x in r ==> x in xs
    ensures k in Ids(xs, key) ==>
              var i := IndexOf(xs, key, k);
              r == xs[..i] + xs[i + 1..]
    decreases |xs|
  {
    if |xs| == 0 then []
    else
      assert xs == [xs[0]] + xs[1..];
      Cons(xs[0], xs[1..], key);
      if key(xs[0]) == k then
        assert xs[1..] == xs[..0] + xs[0 + 1..];
        xs[1..]
      else
        var rest := Remove(xs[1..], key, k);
        assert key(xs[0]) !in Ids(rest, key) by {
          assert Find(rest, key, key(xs[0])) == Find(xs[1..], key, key(xs[0]));
        }
        Cons(xs[0], rest, key);
        assert k in Ids(xs, key) ==> [xs[0]] + rest == xs[..IndexOf(xs, key, k)] + xs[IndexOf(xs, key, k) + 1..] by {
          if k in Ids(xs, key) {
            var j := IndexOf(xs[1..], key, k);
            assert [xs[0]] + (xs[1..][..j] + xs[1..][j + 1..]) == xs[..j + 1] + xs[j + 2..];
          }
        }
        [xs[0]] + rest
  }

  /**
    `append(v)`: adds `v` at the end unless an element with its id is already
    present, in which case the collection is returned unchanged.
  */
  function Append<T, K(==,!new)>(xs: seq<T>, key: T -> K, v: T): (r: seq<T>)
    requires IdsUnique(xs, key)
    ensures IdsUnique(r, key)
    ensures key(v) in Ids(xs, key) ==> r == xs
    ensures key(v) !in Ids(xs, key) ==> Find(r, key, key(v)) == Some(v)
    ensures forall k :: k != key(v) ==> Find(r, key, k) == Find(xs, key, k)
    ensures key(v) !in Ids(xs, key) ==> |r| == |xs| + 1 && r[..|xs|] == xs
  {
    if key(v) in Ids(xs, key) then xs else Upsert(xs, key, v)
  }

  /** For an id already present, `append` keeps the old element where the subscript assignment replaces it. */
  lemma AppendPresentKeepsOld<T, K(!new)>(xs: seq<T>, key: T -> K, v: T)
    requires IdsUnique(xs, key)
    requires key(v) in Ids(xs, key)
    ensures Find(Append(xs, key, v), key, key(v)) == Find(xs, key, key(v))
    ensures Find(Upsert(xs, key, v), key, key(v)) == Some(v)
  {
  }

  /** `s` occurs in `t` in order, possibly with gaps. */
  predicate IsSubsequence<T(==)>(s: seq<T>, t: seq<T>)
    decreases |t|
  {
    if |s| == 0 then true
    else if |t| == 0 then false
    else if s[0] == t[0] then IsSubsequence(s[1..], t[1..])
    else IsSubsequence(s, t[1..])
  }

  /**
    `filter`: the elements satisfying `p`, in their original order, each kept
    element as often as it occurs and every other element dropped.
  */
  function Filter<T(==,!new)>(xs: seq<T>, p: T -> bool): (r: seq<T>)
    ensures forall x :: x in r ==> x in xs && p(x)
    ensures forall x :: x in xs && p(x) ==> x in r
    ensures forall x :: multiset(r)[x] == if p(x) then multiset(xs)[x] else 0
    ensures IsSubsequence(r, xs)
    decreases |xs|
  {
    if |xs| == 0 then []
    else
      var rest := Filter(xs[1..], p);
      assert xs == [xs[0]] + xs[1..];
      assert multiset(xs) == multiset{xs[0]} + multiset(xs[1..]);
      if p(xs[0]) then
        assert ([xs[0]] + rest)[1..] == rest;
        assert multiset([xs[0]] + rest) == multiset{xs[0]} + multiset(rest);
        [xs[0]] + rest
      else
        assert |rest| > 0 ==> rest[0] in xs[1..] && p(rest[0]);
        rest
  }

  /** Filtering distributes over concatenation: it keeps the order of the whole array. */
  lemma {:induction false} FilterConcat<T(!new)>(xs: seq<T>, ys: seq<T>, p: T -> bool)
    ensures Filter(xs + ys, p) == Filter(xs, p) + Filter(ys, p)
    decreases |xs|
  {
    if |xs| > 0 {
      assert (xs + ys)[1..] == xs[1..] + ys;
      FilterConcat(xs[1..], ys, p);
    } else {
      assert xs + ys == ys;
    }
  }

  /** A filter that keeps every element is the identity. */
  lemma {:induction false} FilterKeepsAll<T(!new)>(xs: seq<T>, p: T -> bool)
    requires forall i :: 0 <= i < |xs| ==> p(xs[i])
    ensures Filter(xs, p) == xs
    decreases |xs|
  {
    if |xs| > 0 {
      FilterKeepsAll(xs[1..], p);
    }
  }

  /** Two predicates that agree on every element select the same elements. */
  lemma {:induction false} FilterAgree<T(!new)>(xs: seq<T>, p: T -> bool, q: T -> bool)
    requires forall i :: 0 <= i < |xs| ==> p(xs[i]) == q(xs[i])
    ensures Filter(xs, p) == Filter(xs, q)
    decreases |xs|
  {
    if |xs| > 0 {
      FilterAgree(xs[1..], p, q);
    }
  }

  /** Filtering never introduces a repeated id. */
  lemma {:induction false} FilterIdsUnique<T(!new), K>(xs: seq<T>, key: T -> K, p: T -> bool)
    requires IdsUnique(xs, key)
    ensures IdsUnique(Filter(xs, p), key)
    decreases |xs|
  {
    if |xs| > 0 {
      var rest := Filter(xs[1..], p);
      FilterIdsUnique(xs[1..], key, p);
      if p(xs[0]) {
        Cons(xs[0], rest, key);
        if key(xs[0]) in Ids(rest, key) {
          var x := Find(rest, key, key(xs[0])).value;
          var m :| 0 <= m < |xs[1..]| && xs[1..][m] == x;
          InIds(xs[1..], key, key(xs[0]));
          assert false;
        }
      }
    }
  }
}

=== FILE: keyword_row.dfy ===
/** One keyword in the keyword list: its expansion flag and the thoughts it tags. */
module KeywordRow {
  import opened Options
  import opened Models
  import opened IdentifiedArray
  import opened EntityStore

  datatype State = State(keyword: Keyword, thoughts: seq<Thought>)

  /** `State.init(keyword:)`: the stored thoughts the keyword tags, in store order. */
  function Init(keyword: Keyword, db: Store): (s: State)
    requires Valid(db)
    ensures s.keyword == keyword
    ensures forall t :: t in s.thoughts <==> t in db.thoughts && t.id in keyword.thoughtIds
    ensures IsSubsequence(s.thoughts, db.thoughts)
    ensures IdsUnique(s.thoughts, ThoughtKey)
  {
    ThoughtsForKeywordUnique(db.thoughts, keyword);
    State(keyword, ThoughtsForKeyword(db.thoughts, keyword))
  }

  datatype Action =
    | Binding
    | DeleteKeywordMenuTapped
    | OnAppear
    | OpenAllThoughtsForKeyword
    | ToggleKeywordExpanded
    | UpdateKeywordThoughts

  /**
    `ObserveKeyword` is the publisher `onAppear` starts: it watches the stored
    record with the row's keyword id and answers each change with
    `UpdateKeywordThoughts`.
  */
  datatype Effect = NoEffect | ObserveKeyword(id: Id)

  datatype Step = Step(state: State, store: Store, effect: Effect)

  /** Flips the expansion flag and stores the row's keyword under its id. */
  function ToggleExpanded(st: State, db: Store): (r: Step)
    requires Valid(db)
    ensures Valid(r.store) && r.effect == NoEffect
    ensures r.state.thoughts == st.thoughts
    ensures r.state.keyword.expanded == !st.keyword.expanded
    ensures r.state.keyword.(expanded := st.keyword.expanded) == st.keyword
    ensures Find(r.store.keywords, KeywordKey, st.keyword.id) == Some(r.state.keyword)
    ensures forall id :: id != st.keyword.id ==>
              Find(r.store.keywords, KeywordKey, id) == Find(db.keywords, KeywordKey, id)
    ensures r.store.boxes == db.boxes && r.store.thoughts == db.thoughts
  {
    var k := st.keyword.(expanded := !st.keyword.expanded);
    Step(st.(keyword := k), db.(keywords := Upsert(db.keywords, KeywordKey, k)), NoEffect)
  }

  /** Recomputes the thoughts from the current thought store with the row's own copy of the keyword. */
  function UpdateThoughts(st: State, db: Store): (r: Step)
    requires Valid(db)
    ensures r.store == db && r.effect == NoEffect && r.state.keyword == st.keyword
    ensures forall t :: t in r.state.thoughts <==> t in db.thoughts && t.id in st.keyword.thoughtIds
    ensures IsSubsequence(r.state.thoughts, db.thoughts)
    ensures IdsUnique(r.state.thoughts, ThoughtKey)
  {
    ThoughtsForKeywordUnique(db.thoughts, st.keyword);
    Step(st.(thoughts := ThoughtsForKeyword(db.thoughts, st.keyword)), db, NoEffect)
  }

  function Reduce(st: State, db: Store, a: Action): (r: Step)
    requires Valid(db)
    ensures Valid(r.store)
    ensures a.Binding? || a.DeleteKeywordMenuTapped? || a.OpenAllThoughtsForKeyword? ==> r == Step(st, db, NoEffect)
    ensures a.OnAppear? ==> r == Step(st, db, ObserveKeyword(st.keyword.id))
  {
    match a
    case Binding => Step(st, db, NoEffect)
    case DeleteKeywordMenuTapped => Step(st, db, NoEffect)
    case OnAppear => Step(st, db, ObserveKeyword(st.keyword.id))
    case OpenAllThoughtsForKeyword => Step(st, db, NoEffect)
    case ToggleKeywordExpanded => ToggleExpanded(st, db)
    case UpdateKeywordThoughts => UpdateThoughts(st, db)
  }

  /** Toggling twice restores the row and leaves the store holding the row's original keyword. */
  lemma ToggleTwice(st: State, db: Store)
    requires Valid(db)
    ensures var r1 := Reduce(st, db, ToggleKeywordExpanded);
            var r2 := Reduce(r1.state, r1.store, ToggleKeywordExpanded);
            && r2.state == st
            && Find(r2.store.keywords, KeywordKey, st.keyword.id) == Some(st.keyword)
            && forall id :: id != st.keyword.id ==>
                 Find(r2.store.keywords, KeywordKey, id) == Find(db.keywords, KeywordKey, id)
  {
  }

  /** Recomputing against the store the row was built from gives the row it was built with. */
  lemma UpdateMatchesInit(keyword: Keyword, db: Store)
    requires Valid(db)
    ensures var s := Init(keyword, db);
            Reduce(s, db, UpdateKeywordThoughts) == Step(s, db, NoEffect)
  {
  }

  /** Toggling the flag does not change which thoughts the row lists after a recompute. */
  lemma ToggleKeepsThoughts(st: State, db: Store)
    requires Valid(db)
    ensures var r1 := Reduce(st, db, ToggleKeywordExpanded);
            Reduce(r1.state, r1.store, UpdateKeywordThoughts).state.thoughts
              == Reduce(st, db, UpdateKeywordThoughts).state.thoughts
  {
    var k := st.keyword.(expanded := !st.keyword.expanded);
    ThoughtsForKeywordIgnoresRepeats(db.thoughts, k, st.keyword);
  }
}

=== FILE: keywords_collection.dfy ===
/**
  The keyword chips under a thought's detail pane: removing a keyword from
  the thought or destroying it after a confirmation dialog, and opening the
  keywords window.
*/
module KeywordsCollection {
  import opened Options
  import opened Models
  import opened IdentifiedArray
  import opened EntityStore
  import opened Environment
  import opened Constants

  /** The buttons of the confirmation dialog. */
  datatype Alert = ConfirmCancel | ConfirmDelete(keyword: Keyword, destroy: bool)

  /** The confirmation dialog for removing (`destroy` false) or destroying a keyword. */
  datatype Dialog = DeleteConfirmDialog(keyword: Keyword, destroy: bool)

  /** What the dialog offers: cancel, then the destructive button carrying the dialog's keyword and flag. */
  function Buttons(d: Dialog): (r: seq<Alert>)
    ensures |r| == 2 && r[0] == ConfirmCancel
    ensures r[1].ConfirmDelete? && r[1].keyword == d.keyword && r[1].destroy == d.destroy
  {
    [ConfirmCancel, ConfirmDelete(d.keyword, d.destroy)]
  }

  /**
    `keywords` is the local view of the keywords on the thought;
    `keywordsWindowURL` is the in-memory shared URL of the keywords window.
  */
  datatype State = State(
    thought: Thought,
    keywords: seq<Keyword>,
    destination: Option<Dialog>,
    keywordsWindowURL: Option<string>)

  /** `State.init(thought:)`: the stored keywords that tag the thought, in store order. */
  function Init(thought: Thought, db: Store, keywordsWindowURL: Option<string>): (s: State)
    requires Valid(db)
    ensures s.thought == thought && s.destination == None && s.keywordsWindowURL == keywordsWindowURL
    ensures forall k :: k in s.keywords <==> k in db.keywords && thought.id in k.thoughtIds
    ensures IsSubsequence(s.keywords, db.keywords)
    ensures IdsUnique(s.keywords, KeywordKey)
  {
    KeywordsOnThoughtUnique(db.keywords, thought.id);
    State(thought, KeywordsOnThought(db.keywords, thought.id), None, keywordsWindowURL)
  }

  datatype PresentationAction = Presented(alert: Alert) | Dismiss

  datatype Action =
    | Binding
    | DeleteKeywordMenuTapped(keyword: Keyword, destroy: bool)
    | Destination(presentation: PresentationAction)
    | OpenAllThoughtsForKeyword(keyword: Keyword)
    | OpenAllKeywords
    | OpenKeywordWindow(url: string)

  /** `OpenUrl` is the `.run` effect that hands the URL to the workspace. */
  datatype Effect = NoEffect | Send(action: Action) | OpenUrl(url: string)

  datatype Step = Step(state: State, store: Store, effect: Effect)

  /**
    The confirmed removal. The keyword leaves the local view, the thought is
    stored under its id, and the keyword record is either removed from the
    store (`destroy`) or replaced by the dialog's copy with every occurrence
    of the thought's id dropped.
  */
  function Confirm(st: State, db: Store, k: Keyword, destroy: bool): (r: Step)
    requires Valid(db) && IdsUnique(st.keywords, KeywordKey)
    ensures Valid(r.store) && IdsUnique(r.state.keywords, KeywordKey)
    ensures r.effect == NoEffect && r.state.destination == None
    ensures r.state.thought == st.thought && r.state.keywordsWindowURL == st.keywordsWindowURL
    ensures k.id !in Ids(r.state.keywords, KeywordKey)
    ensures forall id :: id != k.id ==> Find(r.state.keywords, KeywordKey, id) == Find(st.keywords, KeywordKey, id)
    ensures Find(r.store.thoughts, ThoughtKey, st.thought.id) == Some(st.thought)
    ensures forall id :: id != st.thought.id ==>
              Find(r.store.thoughts, ThoughtKey, id) == Find(db.thoughts, ThoughtKey, id)
    ensures destroy ==> k.id !in Ids(r.store.keywords, KeywordKey)
    ensures !destroy ==> Find(r.store.keywords, KeywordKey, k.id) == Some(Unlinked(k, st.thought.id))
    ensures forall id :: id != k.id ==> Find(r.store.keywords, KeywordKey, id) == Find(db.keywords, KeywordKey, id)
    ensures r.store.boxes == db.boxes
  {
    var thoughts := Upsert(db.thoughts, ThoughtKey, st.thought);
    var keywords :=
      if destroy then Remove(db.keywords, KeywordKey, k.id)
      else Upsert(db.keywords, KeywordKey, Unlinked(k, st.thought.id));
    Step(st.(destination := None, keywords := Remove(st.keywords, KeywordKey, k.id)),
         Store(db.boxes, thoughts, keywords),
         NoEffect)
  }

  /**
    The request to open the keywords window on `tag`: on macOS, and when the
    window string is a valid URL, the reducer sends itself that URL; otherwise
    nothing happens.
  */
  function OpenWindow(st: State, db: Store, env: Env, tag: WindowTag): (r: Step)
    ensures r.state == st && r.store == db
    ensures r.effect.Send? <==> env.isMacOS && env.urlParses(WindowString(tag))
    ensures r.effect.Send? ==> r.effect.action == OpenKeywordWindow(WindowString(tag))
    ensures !r.effect.Send? ==> r.effect == NoEffect
  {
    var s := WindowString(tag);
    if env.isMacOS && env.urlParses(s) then Step(st, db, Send(OpenKeywordWindow(s)))
    else Step(st, db, NoEffect)
  }

  function Reduce(st: State, db: Store, env: Env, a: Action): (r: Step)
    requires Valid(db) && IdsUnique(st.keywords, KeywordKey)
    ensures Valid(r.store) && IdsUnique(r.state.keywords, KeywordKey)
    ensures r.state.thought == st.thought
    ensures a.Binding? || a == Destination(Dismiss) ==> r == Step(st, db, NoEffect)
    ensures a.DeleteKeywordMenuTapped? ==>
              r == Step(st.(destination := Some(DeleteConfirmDialog(a.keyword, a.destroy))), db, NoEffect)
    ensures a == Destination(Presented(ConfirmCancel)) ==> r == Step(st.(destination := None), db, NoEffect)
    ensures a.OpenKeywordWindow? ==>
              r == Step(st.(keywordsWindowURL := Some(a.url)), db, OpenUrl(a.url))
    ensures a.OpenAllThoughtsForKeyword? || a.OpenAllKeywords? ==> r.state == st && r.store == db
  {
    match a
    case Binding => Step(st, db, NoEffect)
    case DeleteKeywordMenuTapped(k, destroy) =>
      Step(st.(destination := Some(DeleteConfirmDialog(k, destroy))), db, NoEffect)
    case Destination(Presented(ConfirmCancel)) => Step(st.(destination := None), db, NoEffect)
    case Destination(Presented(ConfirmDelete(k, destroy))) => Confirm(st, db, k, destroy)
    case Destination(Dismiss) => Step(st, db, NoEffect)
    case OpenAllThoughtsForKeyword(k) => OpenWindow(st, db, env, KeywordsWindow(Some(env.uuidString(k.id))))
    case OpenAllKeywords => OpenWindow(st, db, env, KeywordsWindow(None))
    case OpenKeywordWindow(url) => Step(st.(keywordsWindowURL := Some(url)), db, OpenUrl(url))
  }

  /**
    After either confirmation the keyword no longer tags the thought in the
    store, so a collection opened afresh on the thought does not show it.
  */
  lemma ConfirmLeavesView(st: State, db: Store, k: Keyword, destroy: bool)
    requires Valid(db) && IdsUnique(st.keywords, KeywordKey)
    ensures var r := Confirm(st, db, k, destroy);
            forall x :: x in KeywordsOnThought(r.store.keywords, st.thought.id) ==> x.id != k.id
  {
    var r := Confirm(st, db, k, destroy);
    var ks := r.store.keywords;
    forall x | x in KeywordsOnThought(ks, st.thought.id)
      ensures x.id != k.id
    {
      if x.id == k.id {
        var i :| 0 <= i < |ks| && ks[i] == x;
        FindElement(ks, KeywordKey, i);
        InIds(ks, KeywordKey, k.id);
        assert false;
      }
    }
  }

  /** Pressing the destructive button of the dialog a menu tap opened confirms on the same keyword and flag. */
  lemma MenuThenConfirm(st: State, db: Store, env: Env, k: Keyword, destroy: bool)
    requires Valid(db) && IdsUnique(st.keywords, KeywordKey)
    ensures var r1 := Reduce(st, db, env, DeleteKeywordMenuTapped(k, destroy));
            var d := r1.state.destination.value;
            && r1.store == db
            && Reduce(r1.state, r1.store, env, Destination(Presented(Buttons(d)[1]))) == Confirm(st, db, k, destroy)
  {
  }

  /**
    On macOS, the URL sent for a keyword is the keywords-window string
    focused on that keyword's id text, which can be read back from it, and it
    differs from the URL of the unfocused keywords window.
  */
  lemma OpenForKeywordNamesIt(st: State, db: Store, env: Env, k: Keyword)
    requires Valid(db) && IdsUnique(st.keywords, KeywordKey)
    ensures var r := Reduce(st, db, env, OpenAllThoughtsForKeyword(k));
            var n := WindowString(KeywordsWindow(None));
            r.effect.Send? ==>
              && r.effect.action.OpenKeywordWindow?
              && r.effect.action.url[|n| + 1..] == env.uuidString(k.id)
              && r.effect.action.url != n
  {
    var s := env.uuidString(k.id);
    KeywordIdRecoverable(s);
    KeywordsWindowStrictPrefix(s);
  }
}

=== FILE: keywords_window.dfy ===
/** The separate keywords window: a keyword list beside the detail of the selected thought. */
module KeywordsWindow {
  import opened Options
  import opened Models
  import opened IdentifiedArray
  import opened EntityStore
  import opened Environment
  import TD = ThoughtDetail

  /**
    `selectedThoughtIdInKeyword` is the in-memory shared id text of the
    thought selected in the keyword list.
  */
  datatype State = State(thoughtDetail: Option<TD.State>, selectedThoughtIdInKeyword: Option<string>)

  datatype Action =
    | Binding
    | DidSelectThought(thoughtIdString: Option<string>)
    | KeywordList
    | OnAppear
    | ThoughtDetail(action: TD.Action)

  /**
    `ObserveSelection` is the publisher `onAppear` starts: each distinct value
    of the shared selection comes back as `DidSelectThought`.
  */
  datatype Effect = NoEffect | ObserveSelection

  datatype Step = Step(state: State, effect: Effect)

  /** Resolves the selected id text to a stored thought: unparseable text or an unknown id gives none. */
  function SelectedThought(thoughts: seq<Thought>, env: Env, s: Option<string>): (r: Option<Thought>)
    requires IdsUnique(thoughts, ThoughtKey)
    ensures s.None? ==> r.None?
    ensures s.Some? && env.parseUuid(s.value).None? ==> r.None?
    ensures s.Some? && env.parseUuid(s.value).Some? ==>
              r == ThoughtById(thoughts, env.parseUuid(s.value).value)
    ensures r.Some? ==> r.value in thoughts && Some(r.value.id) == env.parseUuid(s.value)
  {
    match s
    case None => None
    case Some(text) =>
      match env.parseUuid(text)
      case None => None
      case Some(id) => ThoughtById(thoughts, id)
  }

  /** Shows the detail of the selected thought, or no detail when the selection resolves to nothing. */
  function DidSelect(st: State, db: Store, env: Env, s: Option<string>): (r: Step)
    requires Valid(db)
    ensures r.effect == NoEffect && r.state.selectedThoughtIdInKeyword == st.selectedThoughtIdInKeyword
    ensures r.state.thoughtDetail.None? <==> SelectedThought(db.thoughts, env, s).None?
    ensures r.state.thoughtDetail.Some? ==>
              && r.state.thoughtDetail.value.thought in db.thoughts
              && Some(r.state.thoughtDetail.value.thought.id) == env.parseUuid(s.value)
              && r.state.thoughtDetail.value.title == r.state.thoughtDetail.value.thought.title
              && r.state.thoughtDetail.value.destination == None
  {
    match SelectedThought(db.thoughts, env, s)
    case None => Step(st.(thoughtDetail := None), NoEffect)
    case Some(t) => Step(st.(thoughtDetail := Some(TD.Init(t))), NoEffect)
  }

  /** The window-level reducer; the keyword list and the detail run their own reducers. */
  function Reduce(st: State, db: Store, env: Env, a: Action): (r: Step)
    requires Valid(db)
    ensures a.Binding? || a.KeywordList? || a.ThoughtDetail? ==> r == Step(st, NoEffect)
    ensures a.OnAppear? ==> r == Step(st, ObserveSelection)
    ensures a == DidSelectThought(None) ==> r.state == st.(thoughtDetail := None)
  {
    match a
    case Binding => Step(st, NoEffect)
    case DidSelectThought(s) => DidSelect(st, db, env, s)
    case KeywordList => Step(st, NoEffect)
    case OnAppear => Step(st, ObserveSelection)
    case ThoughtDetail(_) => Step(st, NoEffect)
  }

  /**
    The id text of any stored thought, written by `uuidString` and read back
    by the parser, opens exactly that thought's detail.
  */
  lemma SelectStoredThought(st: State, db: Store, env: Env, t: Thought)
    requires Valid(db)
    requires t in db.thoughts
    requires env.parseUuid(env.uuidString(t.id)) == Some(t.id)
    ensures Reduce(st, db, env, DidSelectThought(Some(env.uuidString(t.id)))).state.thoughtDetail
              == Some(TD.Init(t))
  {
    var i :| 0 <= i < |db.thoughts| && db.thoughts[i] == t;
  }
}

=== FILE: list_keywords_collection.dfy ===
/**
  The earlier keyword chips under a thought in the thought list. Its
  confirmation dialog opens and closes, but confirming changes no data.
*/
module ListKeywordsCollection {
  import opened Options
  import opened Models
  import opened IdentifiedArray
  import opened EntityStore

  datatype Alert = ConfirmCancel | ConfirmDelete

  datatype Dialog = DeleteConfirmDialog(keyword: Keyword)

  datatype State = State(thought: Thought, keywords: seq<Keyword>, destination: Option<Dialog>)

  /** The stored keywords that tag the thought, in store order. */
  function Init(thought: Thought, db: Store): (s: State)
    requires Valid(db)
    ensures s.thought == thought && s.destination == None
    ensures forall k :: k in s.keywords <==> k in db.keywords && thought.id in k.thoughtIds
    ensures IsSubsequence(s.keywords, db.keywords)
    ensures IdsUnique(s.keywords, KeywordKey)
  {
    KeywordsOnThoughtUnique(db.keywords, thought.id);
    State(thought, KeywordsOnThought(db.keywords, thought.id), None)
  }

  datatype PresentationAction = Presented(alert: Alert) | Dismiss

  datatype Action =
    | Binding
    | DeleteKeywordMenuTapped(keyword: Keyword)
    | Destination(presentation: PresentationAction)
    | OpenAllThoughtsForKeyword(keyword: Keyword)

  /** The confirmation returns an empty `.run` effect, which is modelled as no effect. */
  datatype Step = Step(state: State, store: Store)

  /** Only the dialog slot ever changes: the thought, the view and the store are read-only here. */
  function Reduce(st: State, db: Store, a: Action): (r: Step)
    ensures r.store == db
    ensures r.state.thought == st.thought && r.state.keywords == st.keywords
    ensures a.DeleteKeywordMenuTapped? ==> r.state.destination == Some(DeleteConfirmDialog(a.keyword))
    ensures a.Destination? && a.presentation.Presented? ==> r.state.destination == None
    ensures a.Binding? || a.OpenAllThoughtsForKeyword? || a == Destination(Dismiss) ==> r.state == st
  {
    match a
    case Binding => Step(st, db)
    case DeleteKeywordMenuTapped(k) => Step(st.(destination := Some(DeleteConfirmDialog(k))), db)
    case Destination(Presented(ConfirmCancel)) => Step(st.(destination := None), db)
    case Destination(Presented(ConfirmDelete)) => Step(st.(destination := None), db)
    case Destination(Dismiss) => Step(st, db)
    case OpenAllThoughtsForKeyword(_) => Step(st, db)
  }

  /** A menu tap followed by either dialog button returns to the starting state, with the store untouched. */
  lemma MenuThenAnswer(st: State, db: Store, k: Keyword, answer: Alert)
    requires st.destination == None
    ensures var r1 := Reduce(st, db, DeleteKeywordMenuTapped(k));
            Reduce(r1.state, r1.store, Destination(Presented(answer))) == Step(st, db)
  {
  }
}

=== FILE: list_thought_detail.dfy ===
/** The earlier detail pane of a thought in the thought list: only the title is editable. */
module ListThoughtDetail {
  import opened Options
  import opened Models
  import opened IdentifiedArray
  import opened EntityStore
  import opened ThoughtTitle

  datatype Field = Title

  datatype State = State(thought: Thought, title: string, focus: Option<Field>)

  /** The draft starts as the stored title. */
  function Init(thought: Thought): (s: State)
    ensures s.thought == thought && s.title == thought.title && s.focus == None
  {
    State(thought, thought.title, None)
  }

  /** `SetFocus` and `SetTitle` are the bindings of the focus and the draft. */
  datatype Action =
    | SetFocus(focus: Option<Field>)
    | SetTitle(title: string)
    | ThemeButtonTapped
    | UpdateThoughtTitle

  datatype Effect = NoEffect | Send(action: Action)

  datatype Step = Step(state: State, store: Store, effect: Effect)

  function Reduce(st: State, db: Store, a: Action): (r: Step)
    requires Valid(db)
    ensures Valid(r.store)
    ensures a.SetFocus? ==> r.state == st.(focus := a.focus) && r.store == db
    ensures a.SetFocus? ==> (r.effect == Send(UpdateThoughtTitle) <==> a.focus == None && st.title != st.thought.title)
    ensures a.SetFocus? && r.effect != Send(UpdateThoughtTitle) ==> r.effect == NoEffect
    ensures a.SetTitle? ==> r == Step(st.(title := a.title), db, NoEffect)
    ensures a.ThemeButtonTapped? ==> r == Step(st, db, NoEffect)
    ensures a.UpdateThoughtTitle? ==>
              && r.effect == NoEffect
              && r.state.(thought := st.thought) == st
              && r.state.thought.title == ValidTitle(st.title)
              && r.state.thought.(title := st.thought.title) == st.thought
              && Find(r.store.thoughts, ThoughtKey, st.thought.id) == Some(r.state.thought)
              && (forall id :: id != st.thought.id ==>
                    Find(r.store.thoughts, ThoughtKey, id) == Find(db.thoughts, ThoughtKey, id))
              && r.store.boxes == db.boxes && r.store.keywords == db.keywords
  {
    match a
    case SetFocus(f) =>
      var s := st.(focus := f);
      if CommitsOnFocus(s.focus, s.title, s.thought) then Step(s, db, Send(UpdateThoughtTitle))
      else Step(s, db, NoEffect)
    case SetTitle(t) => Step(st.(title := t), db, NoEffect)
    case ThemeButtonTapped => Step(st, db, NoEffect)
    case UpdateThoughtTitle =>
      var (t, thoughts) := Commit(st.thought, st.title, db.thoughts);
      Step(st.(thought := t), db.(thoughts := thoughts), NoEffect)
  }

  /** Typing alone never writes the store; only a focus loss with a changed draft leads to a write. */
  lemma TypingThenBlur(st: State, db: Store, draft: string)
    requires Valid(db)
    ensures var r1 := Reduce(st, db, SetTitle(draft));
            var r2 := Reduce(r1.state, r1.store, SetFocus(None));
            && r1.store == db && r2.store == db
            && (r2.effect == Send(UpdateThoughtTitle) <==> draft != st.thought.title)
  {
  }
}

=== FILE: models.dfy ===
/**
  The records of the application: boxes (a forest of folders), thoughts (notes
  owned by one box) and keywords (tags naming a list of thoughts), with the
  closed theme-colour enumeration and the thought status.
*/
module Models {
  import opened Options

  /** A record identifier (a UUID); only equality and freshness matter here. */
  type Id = nat

  /** A timestamp; the model never inspects it. */
  type Date = int

  // ---------------------------------------------------------------- colours

  datatype Pastel = LemonSorbet | MorningMist | TwilightBlues | MangoMousse

  datatype Gold = MidnightDream | TwilightGlow | FlamencoFlame | AgateBrown

  /** The box theme colour: one of two palettes, four fixed shades each. */
  datatype BoxThemeColor = PastelColor(pastel: Pastel) | GoldColor(gold: Gold)

  /** `Pastel.allCases`, in declaration order. */
  const PastelCases: seq<Pastel> := [LemonSorbet, MorningMist, TwilightBlues, MangoMousse]

  /** `Gold.allCases`, in declaration order. */
  const GoldCases: seq<Gold> := [MidnightDream, TwilightGlow, FlamencoFlame, AgateBrown]

  function PastelRawValue(p: Pastel): string {
    match p
    case LemonSorbet => "#EADFB4"
    case MorningMist => "#9BB0C1"
    case TwilightBlues => "#51829B"
    case MangoMousse => "#F6995C"
  }

  function GoldRawValue(g: Gold): string {
    match g
    case MidnightDream => "#5F0F40"
    case TwilightGlow => "#FB8B24"
    case FlamencoFlame => "#E36414"
    case AgateBrown => "#9A031E"
  }

  /** The hex string of the wrapped shade. */
  function RawValue(c: BoxThemeColor): (r: string)
    ensures |r| == 7 && r[0] == '#'
    ensures c.PastelColor? ==> r == PastelRawValue(c.pastel)
    ensures c.GoldColor? ==> r == GoldRawValue(c.gold)
  {
    match c
    case PastelColor(p) => PastelRawValue(p)
    case GoldColor(g) => GoldRawValue(g)
  }

  /** Distinct colours have distinct hex strings, so the hex string identifies the colour. */
  lemma RawValueInjective(a: BoxThemeColor, b: BoxThemeColor)
    requires RawValue(a) == RawValue(b)
    ensures a == b
  {
    var ra, rb := RawValue(a), RawValue(b);
    assert ra[1] == rb[1] && ra[2] == rb[2] && ra[3] == rb[3];
  }

  /** The palette a colour belongs to. */
  function Description(c: BoxThemeColor): (r: string)
    ensures r == "Pastel" <==> c.PastelColor?
    ensures r == "Gold" <==> c.GoldColor?
  {
    match c
    case PastelColor(_) => "Pastel"
    case GoldColor(_) => "Gold"
  }

  function PastelSection(): seq<BoxThemeColor> {
    seq(|PastelCases|, i requires 0 <= i < |PastelCases| => PastelColor(PastelCases[i]))
  }

  function GoldSection(): seq<BoxThemeColor> {
    seq(|GoldCases|, i requires 0 <= i < |GoldCases| => GoldColor(GoldCases[i]))
  }

  /** Every colour value appears among the pastel section followed by the gold section. */
  lemma AllColorsListed()
    ensures forall c: BoxThemeColor :: c in PastelSection() + GoldSection()
  {
    var r := PastelSection() + GoldSection();
    forall c: BoxThemeColor
      ensures c in r
    {
      match c
      case PastelColor(p) =>
        var i := match p
          case LemonSorbet => 0 case MorningMist => 1 case TwilightBlues => 2 case MangoMousse => 3;
        assert r[i] == c;
      case GoldColor(g) =>
        var i := match g
          case MidnightDream => 4 case TwilightGlow => 5 case FlamencoFlame => 6 case AgateBrown => 7;
        assert r[i] == c;
    }
  }

  /** `BoxThemeColor.allCases`: the pastel shades then the gold shades. */
  function AllCases(): (r: seq<BoxThemeColor>)
    ensures |r| == 8
    ensures forall i :: 0 <= i < 4 ==> r[i] == PastelColor(PastelCases[i])
    ensures forall i :: 4 <= i < 8 ==> r[i] == GoldColor(GoldCases[i - 4])
    ensures forall c: BoxThemeColor :: c in r
    ensures forall i, j :: 0 <= i < j < |r| ==> r[i] != r[j]
  {
    AllColorsListed();
    PastelSection() + GoldSection()
  }

  /** `BoxThemeColor.sectionCases`: one section per palette. */
  function SectionCases(): (r: seq<seq<BoxThemeColor>>)
    ensures |r| == 2
    ensures r[0] + r[1] == AllCases()
    ensures forall c :: c in r[0] ==> Description(c) == "Pastel"
    ensures forall c :: c in r[1] ==> Description(c) == "Gold"
  {
    [PastelSection(), GoldSection()]
  }

  // ---------------------------------------------------------------- boxes

  /** A folder; `parentBoxId == None` marks a root of the forest. */
  datatype Box = Box(id: Id, name: string, updateDate: Date, parentBoxId: Option<Id>, color: BoxThemeColor)

  const DefaultBoxName := "New Box"
  const DefaultBoxColor := PastelColor(LemonSorbet)

  /** `Box.init`: the default name and colour, and the parent only when one is given. */
  function NewBox(id: Id, updateDate: Date, parentBoxId: Option<Id> := None): (b: Box)
    ensures b.id == id && b.updateDate == updateDate && b.parentBoxId == parentBoxId
    ensures b.name == "New Box"
    ensures b.color == PastelColor(LemonSorbet) && RawValue(b.color) == "#EADFB4"
  {
    Box(id, DefaultBoxName, updateDate, parentBoxId, DefaultBoxColor)
  }

  // ---------------------------------------------------------------- thoughts

  datatype Status = Active | Archived | Custom(text: string)

  /**
    The label shown for a status. `uppercased` stands for the platform's
    Unicode upper-casing, which the model leaves uninterpreted.
  */
  function StatusDescription(s: Status, uppercased: string -> string): (r: string)
    ensures s.Active? ==> r == "ACTIVE"
    ensures s.Archived? ==> r == "ARCHIVED"
    ensures s.Custom? ==> r == uppercased(s.text)
  {
    match s
    case Active => "ACTIVE"
    case Archived => "ARCHIVED"
    case Custom(text) => uppercased(text)
  }

  /** `Status.allCases`: the two fixed statuses and one sample custom text. */
  function StatusAllCases(): (r: seq<Status>)
    ensures |r| == 3
    ensures r[0] == Active && r[1] == Archived && r[2] == Custom("\U{81EA}\U{5B9A}\U{4E49}")
    ensures forall i, j :: 0 <= i < j < |r| ==> r[i] != r[j]
  {
    [Active, Archived, Custom("\U{81EA}\U{5B9A}\U{4E49}")]
  }

  /** A note owned by the box `boxId`. */
  datatype Thought = Thought(id: Id, boxId: Id, title: string, body: string, updateDate: Date, status: Status)

  const DefaultThoughtTitle := "New Thought"
  const DefaultThoughtBody := "Handle your thought"

  /** `Thought.init`, with its default title, body and status. */
  function NewThought(id: Id, boxId: Id, updateDate: Date,
                      title: string := DefaultThoughtTitle,
                      body: string := DefaultThoughtBody,
                      status: Status := Active): (t: Thought)
    ensures t.id == id && t.boxId == boxId && t.updateDate == updateDate
    ensures t.title == title && t.body == body && t.status == status
  {
    Thought(id, boxId, title, body, updateDate, status)
  }

  /** Called without the optional arguments, the initialiser yields the documented defaults. */
  lemma NewThoughtDefaults(id: Id, boxId: Id, updateDate: Date)
    ensures NewThought(id, boxId, updateDate).title == "New Thought"
    ensures NewThought(id, boxId, updateDate).body == "Handle your thought"
    ensures NewThought(id, boxId, updateDate).status == Active
  {
  }

  // ---------------------------------------------------------------- keywords

  /**
    The keyword colour. Only its default shade is named in this model; the
    other shades are represented by an opaque tag.
  */
  datatype KeywordThemeColor = RoyalPurple | OtherKeywordColor(tag: nat)

  /** A tag over thoughts; `thoughtIds` may repeat an id. */
  datatype Keyword = Keyword(id: Id, name: string, color: KeywordThemeColor, thoughtIds: seq<Id>, expanded: bool)

  // ---------------------------------------------------------------- keys

  function BoxKey(b: Box): Id { b.id }
  function ThoughtKey(t: Thought): Id { t.id }
  function KeywordKey(k: Keyword): Id { k.id }
}

=== FILE: new_keyword.dfy ===
/** The "create a keyword from the search term" panel of the keyword picker. */
module NewKeyword {
  import opened Options
  import opened Models
  import opened IdentifiedArray
  import opened EntityStore
  import opened Environment

  datatype State = State(searchTerm: string, selectedColor: KeywordThemeColor)

  /** `State.init(searchTerm:)`: the colour starts as royal purple. */
  function Init(searchTerm: string): (s: State)
    ensures s.searchTerm == searchTerm && s.selectedColor == RoyalPurple
  {
    State(searchTerm, RoyalPurple)
  }

  datatype DelegateAction = KeywordAdded

  datatype Action =
    | Binding
    | ColorDidTapped(color: KeywordThemeColor)
    | CreateNewKeywordButtonTapped
    | Delegate(delegate: DelegateAction)

  datatype Effect = NoEffect | Send(action: Action)

  datatype Step = Step(state: State, store: Store, effect: Effect)

  /** The keyword a successful create stores: named by the search term, in the chosen colour, tagging nothing. */
  function Created(st: State, id: Id): Keyword {
    Keyword(id, st.searchTerm, st.selectedColor, [], false)
  }

  /**
    Creates a keyword from a non-empty search term, stores it under a new id
    and tells the parent; an empty term does nothing.
  */
  function CreateNewKeyword(st: State, db: Store, env: Env): (r: Step)
    requires Valid(db)
    ensures Valid(r.store)
    ensures r.state == st
    ensures r.store.boxes == db.boxes && r.store.thoughts == db.thoughts
    ensures st.searchTerm == "" ==> r == Step(st, db, NoEffect)
    ensures r.effect == Send(Delegate(KeywordAdded)) <==> st.searchTerm != ""
    ensures st.searchTerm != "" ==>
              Find(r.store.keywords, KeywordKey, env.uuid)
                == Some(Keyword(env.uuid, st.searchTerm, st.selectedColor, [], false))
    ensures forall id :: id != env.uuid ==> Find(r.store.keywords, KeywordKey, id) == Find(db.keywords, KeywordKey, id)
    ensures st.searchTerm != "" && env.uuid !in Ids(db.keywords, KeywordKey) ==>
              |r.store.keywords| == |db.keywords| + 1
  {
    if st.searchTerm == "" then Step(st, db, NoEffect)
    else
      var k := Created(st, env.uuid);
      Step(st, db.(keywords := Upsert(db.keywords, KeywordKey, k)), Send(Delegate(KeywordAdded)))
  }

  function Reduce(st: State, db: Store, env: Env, a: Action): (r: Step)
    requires Valid(db)
    ensures Valid(r.store)
    ensures a.Binding? || a.Delegate? ==> r == Step(st, db, NoEffect)
    ensures a.ColorDidTapped? ==> r == Step(st.(selectedColor := a.color), db, NoEffect)
    ensures r.effect.Send? ==> a.CreateNewKeywordButtonTapped? && st.searchTerm != ""
  {
    match a
    case Binding => Step(st, db, NoEffect)
    case ColorDidTapped(c) => Step(st.(selectedColor := c), db, NoEffect)
    case CreateNewKeywordButtonTapped => CreateNewKeyword(st, db, env)
    case Delegate(_) => Step(st, db, NoEffect)
  }
}

=== FILE: options.dfy ===
/** Swift's `Optional`: a value that may be absent (`nil`). */
module Options {

  datatype Option<+T> = None | Some(value: T) {

    /** The wrapped value, or `default` when absent (Swift's `??`). */
    function GetOr(default: T): T {
      match this
      case Some(v) => v
      case None => default
    }
  }
}

=== FILE: text.dfy ===
/** Substring search, as used by the keyword picker's case-insensitive filter. */
module Text {

  /** `p` is a prefix of `s`. */
  predicate IsPrefix(p: string, s: string) {
    |p| <= |s| && s[..|p|] == p
  }

  /** `s.contains(sub)`: `sub` occurs somewhere in `s` (the empty string occurs everywhere). */
  predicate Contains(s: string, sub: string)
    decreases |s|
  {
    IsPrefix(sub, s) || (|s| > 0 && Contains(s[1..], sub))
  }

  /** `sub` occurs in `s` starting at position `i`. */
  predicate OccursAt(s: string, sub: string, i: int) {
    0 <= i && i + |sub| <= |s| && s[i..i + |sub|] == sub
  }

  /** The recursive search agrees with the positional definition of an occurrence. */
  lemma {:induction false} ContainsAt(s: string, sub: string)
    ensures Contains(s, sub) <==> exists i :: OccursAt(s, sub, i)
    decreases |s|
  {
    if IsPrefix(sub, s) {
      assert OccursAt(s, sub, 0);
    } else if |s| > 0 {
      ContainsAt(s[1..], sub);
      if Contains(s[1..], sub) {
        var i :| OccursAt(s[1..], sub, i);
        assert s[1..][i..i + |sub|] == s[i + 1..i + 1 + |sub|];
        assert OccursAt(s, sub, i + 1);
      }
      if exists i :: OccursAt(s, sub, i) {
        var i :| OccursAt(s, sub, i);
        assert i != 0;
        assert s[1..][i - 1..i - 1 + |sub|] == s[i..i + |sub|];
        assert OccursAt(s[1..], sub, i - 1);
      }
    }
  }
}

=== FILE: thought_detail.dfy ===
/**
  The detail pane of one thought: the draft title committed on focus loss,
  the status picker and the keyword-picker popover.
*/
module ThoughtDetail {
  import opened Options
  import opened Models
  import opened IdentifiedArray
  import opened EntityStore
  import opened ThoughtTitle
  import Picker = ThoughtKeywordPicker

  datatype Field = Title

  /** `destination` is the keyword picker when it is presented. */
  datatype State = State(thought: Thought, title: string, focus: Option<Field>, destination: Option<Picker.State>)

  /** `State.init(thought:)`: the draft starts as the stored title, unfocused, with nothing presented. */
  function Init(thought: Thought): (s: State)
    ensures s.thought == thought && s.title == thought.title
    ensures s.focus == None && s.destination == None
  {
    State(thought, thought.title, None, None)
  }

  /**
    The two bindings the view drives: `SetFocus` and `SetTitle` write the
    bound field (the binding reducer runs first), after which the reducer
    reacts to the focus change.
  */
  datatype Action =
    | SetFocus(focus: Option<Field>)
    | SetTitle(title: string)
    | Destination
    | KeywordPickerButtonTapped
    | ThemeButtonTapped
    | UpdateThoughtTitle
    | UpdateThoughtStatus(status: Status)

  datatype Effect = NoEffect | Send(action: Action)

  datatype Step = Step(state: State, store: Store, effect: Effect)

  /** A focus change: the field is written, and losing focus with a changed draft asks for a retitle. */
  function ChangeFocus(st: State, db: Store, focus: Option<Field>): (r: Step)
    ensures r.state == st.(focus := focus) && r.store == db
    ensures r.effect == Send(UpdateThoughtTitle) <==> focus == None && st.title != st.thought.title
    ensures r.effect != Send(UpdateThoughtTitle) ==> r.effect == NoEffect
  {
    var s := st.(focus := focus);
    if CommitsOnFocus(s.focus, s.title, s.thought) then Step(s, db, Send(UpdateThoughtTitle))
    else Step(s, db, NoEffect)
  }

  /** Stores the validated draft as the thought's title. */
  function UpdateTitle(st: State, db: Store): (r: Step)
    requires Valid(db)
    ensures Valid(r.store) && r.effect == NoEffect
    ensures r.state.(thought := st.thought) == st
    ensures r.state.thought.title != ""
    ensures st.title != "" ==> r.state.thought.title == st.title
    ensures st.title == "" ==> r.state.thought.title == "New Thought"
    ensures r.state.thought.(title := st.thought.title) == st.thought
    ensures Find(r.store.thoughts, ThoughtKey, st.thought.id) == Some(r.state.thought)
    ensures forall id :: id != st.thought.id ==>
              Find(r.store.thoughts, ThoughtKey, id) == Find(db.thoughts, ThoughtKey, id)
    ensures r.store.boxes == db.boxes && r.store.keywords == db.keywords
  {
    var (t, thoughts) := Commit(st.thought, st.title, db.thoughts);
    Step(st.(thought := t), db.(thoughts := thoughts), NoEffect)
  }

  /** Sets the thought's status and stores the thought under its id. */
  function UpdateStatus(st: State, db: Store, status: Status): (r: Step)
    requires Valid(db)
    ensures Valid(r.store) && r.effect == NoEffect
    ensures r.state.(thought := st.thought) == st
    ensures r.state.thought.status == status
    ensures r.state.thought.(status := st.thought.status) == st.thought
    ensures Find(r.store.thoughts, ThoughtKey, st.thought.id) == Some(r.state.thought)
    ensures forall id :: id != st.thought.id ==>
              Find(r.store.thoughts, ThoughtKey, id) == Find(db.thoughts, ThoughtKey, id)
    ensures r.store.boxes == db.boxes && r.store.keywords == db.keywords
  {
    var (t, thoughts) := SetStatus(st.thought, status, db.thoughts);
    Step(st.(thought := t), db.(thoughts := thoughts), NoEffect)
  }

  function Reduce(st: State, db: Store, a: Action): (r: Step)
    requires Valid(db)
    ensures Valid(r.store)
    ensures a.SetTitle? ==> r == Step(st.(title := a.title), db, NoEffect)
    ensures a.Destination? || a.ThemeButtonTapped? ==> r == Step(st, db, NoEffect)
    ensures a.KeywordPickerButtonTapped? ==>
              && r.store == db && r.effect == NoEffect
              && r.state == st.(destination := Some(Picker.Init(st.thought, db)))
              && r.state.destination.value.thought == st.thought
    ensures a.SetFocus? && a.focus.Some? ==> r == Step(st.(focus := a.focus), db, NoEffect)
  {
    match a
    case SetFocus(f) => ChangeFocus(st, db, f)
    case SetTitle(t) => Step(st.(title := t), db, NoEffect)
    case Destination => Step(st, db, NoEffect)
    case KeywordPickerButtonTapped => Step(st.(destination := Some(Picker.Init(st.thought, db))), db, NoEffect)
    case ThemeButtonTapped => Step(st, db, NoEffect)
    case UpdateThoughtTitle => UpdateTitle(st, db)
    case UpdateThoughtStatus(s) => UpdateStatus(st, db, s)
  }

  /**
    Leaving the title field with an edited draft, and then handling the
    retitle it asks for, stores the validated draft under the thought's id and
    keeps the draft as typed.
  */
  lemma FocusLossCommitsTitle(st: State, db: Store)
    requires Valid(db)
    requires st.title != st.thought.title
    ensures var r1 := Reduce(st, db, SetFocus(None));
            var r2 := Reduce(r1.state, r1.store, r1.effect.action);
            && r1.effect == Send(UpdateThoughtTitle)
            && r2.state.title == st.title && r2.state.focus == None
            && Find(r2.store.thoughts, ThoughtKey, st.thought.id) == Some(r2.state.thought)
            && r2.state.thought == st.thought.(title := ValidTitle(st.title))
  {
  }

  /** A retitle handled twice stores the same thing as one. */
  lemma RetitleIdempotent(st: State, db: Store)
    requires Valid(db)
    ensures var r1 := Reduce(st, db, UpdateThoughtTitle);
            Reduce(r1.state, r1.store, UpdateThoughtTitle) == r1
  {
    CommitIdempotent(st.thought, st.title, db.thoughts);
  }

  /** Once the draft is committed, losing focus again asks for nothing, unless the draft was empty. */
  lemma CommittedDraftIsQuiet(st: State, db: Store)
    requires Valid(db) && st.title != ""
    ensures var r1 := Reduce(st, db, UpdateThoughtTitle);
            Reduce(r1.state, r1.store, SetFocus(None)).effect == NoEffect
  {
  }
}

=== FILE: thought_keyword_picker.dfy ===
/** The popover that links existing keywords to a thought and searches them. */
module ThoughtKeywordPicker {
  import opened Options
  import opened Models
  import opened IdentifiedArray
  import opened EntityStore
  import opened Environment
  import opened Text
  import NK = NewKeyword

  datatype State = State(
    thought: Thought,
    keywords: seq<Keyword>,
    selectedKeywords: set<Keyword>,
    searchTerm: string,
    newKeyword: Option<NK.State>)

  /** `State.init(thought:)`: the whole keyword store, nothing selected, no search. */
  function Init(thought: Thought, db: Store): (s: State)
    ensures s.thought == thought && s.keywords == db.keywords
    ensures s.selectedKeywords == {} && s.searchTerm == "" && s.newKeyword == None
  {
    State(thought, db.keywords, {}, "", None)
  }

  datatype Action =
    | AddKeywordsToThoughtButtonTapped
    | Binding
    | ClearSearchTerm
    | KeywordSelectionUpdate(selection: set<Keyword>)
    | NewKeyword(action: NK.Action)
    | NewKeywordUpdate
    | SearchTermUpdate(term: string)

  /** `Dismiss` is the `.run` effect that closes the popover. */
  datatype Effect = NoEffect | Send(action: Action) | Dismiss

  datatype Step = Step(state: State, store: Store, effect: Effect)

  /** The ids of the selected keywords. */
  ghost function SelectedIds(sel: set<Keyword>): set<Id> {
    set k | k in sel :: k.id
  }

  /** The selected keywords, each with `thoughtId` appended. */
  ghost function LinkedSelection(sel: set<Keyword>, thoughtId: Id): set<Keyword> {
    set c | c in sel :: Linked(c, thoughtId)
  }

  /**
    Writes every keyword of `sel`, with `thoughtId` appended, into the keyword
    store. The source iterates a hash set, whose order is unspecified; the
    model picks the next element by choice, so the contract holds for every
    order. When two selected copies share an id the later write wins, which
    is why the contract only says the stored record is one of the linked
    selected copies.
  */
  ghost function LinkAll(keywords: seq<Keyword>, sel: set<Keyword>, thoughtId: Id): (r: seq<Keyword>)
    requires IdsUnique(keywords, KeywordKey)
    ensures IdsUnique(r, KeywordKey)
    ensures forall id :: id !in SelectedIds(sel) ==> Find(r, KeywordKey, id) == Find(keywords, KeywordKey, id)
    ensures forall k :: k in sel ==>
              Find(r, KeywordKey, k.id).Some? && Find(r, KeywordKey, k.id).value in LinkedSelection(sel, thoughtId)
    decreases sel
  {
    if sel == {} then keywords
    else
      var k :| k in sel;
      var once := Upsert(keywords, KeywordKey, Linked(k, thoughtId));
      var r := LinkAll(once, sel - {k}, thoughtId);
      LinkAllStep(keywords, sel, thoughtId, k, once, r);
      r
  }

  /** One step of `LinkAll`: writing `k` first, then the rest of the selection. */
  lemma LinkAllStep(keywords: seq<Keyword>, sel: set<Keyword>, thoughtId: Id, k: Keyword,
                    once: seq<Keyword>, r: seq<Keyword>)
    requires IdsUnique(keywords, KeywordKey)
    requires k in sel
    requires once == Upsert(keywords, KeywordKey, Linked(k, thoughtId))
    requires forall id :: id !in SelectedIds(sel - {k}) ==> Find(r, KeywordKey, id) == Find(once, KeywordKey, id)
    requires forall k' :: k' in sel - {k} ==>
               Find(r, KeywordKey, k'.id).Some? && Find(r, KeywordKey, k'.id).value in LinkedSelection(sel - {k}, thoughtId)
    ensures forall id :: id !in SelectedIds(sel) ==> Find(r, KeywordKey, id) == Find(keywords, KeywordKey, id)
    ensures forall k' :: k' in sel ==>
              Find(r, KeywordKey, k'.id).Some? && Find(r, KeywordKey, k'.id).value in LinkedSelection(sel, thoughtId)
  {
    assert k.id in SelectedIds(sel);
    assert LinkedSelection(sel - {k}, thoughtId) <= LinkedSelection(sel, thoughtId);
    forall id | id !in SelectedIds(sel)
      ensures Find(r, KeywordKey, id) == Find(keywords, KeywordKey, id)
    {
      assert id !in SelectedIds(sel - {k});
    }
    if k.id in SelectedIds(sel - {k}) {
      var c0 :| c0 in sel - {k} && c0.id == k.id;
      assert Find(r, KeywordKey, k.id) == Find(r, KeywordKey, c0.id);
    } else {
      assert Find(r, KeywordKey, k.id) == Some(Linked(k, thoughtId));
    }
  }

  /** When no two selected copies share an id, each selected keyword is stored linked exactly as selected. */
  lemma LinkAllDistinct(keywords: seq<Keyword>, sel: set<Keyword>, thoughtId: Id, k: Keyword)
    requires IdsUnique(keywords, KeywordKey)
    requires forall a, b :: a in sel && b in sel && a.id == b.id ==> a == b
    requires k in sel
    ensures Find(LinkAll(keywords, sel, thoughtId), KeywordKey, k.id) == Some(Linked(k, thoughtId))
  {
  }

  /**
    Links the selected keywords to the thought and dismisses the popover; with
    nothing selected it does nothing. Duplicates are not checked: a keyword
    that already tags the thought gains a second entry.
  */
  ghost function AddKeywordsToThought(st: State, db: Store): (r: Step)
    requires Valid(db)
    ensures Valid(r.store)
    ensures r.state == st
    ensures st.selectedKeywords == {} ==> r == Step(st, db, NoEffect)
    ensures st.selectedKeywords != {} ==> r.effect == Dismiss
    ensures r.store.boxes == db.boxes && r.store.thoughts == db.thoughts
    ensures forall id :: id !in SelectedIds(st.selectedKeywords) ==>
              Find(r.store.keywords, KeywordKey, id) == Find(db.keywords, KeywordKey, id)
    ensures forall k :: k in st.selectedKeywords ==>
              exists c :: c in st.selectedKeywords && c.id == k.id
                && Find(r.store.keywords, KeywordKey, k.id) == Some(Linked(c, st.thought.id))
  {
    if st.selectedKeywords == {} then Step(st, db, NoEffect)
    else Step(st, db.(keywords := LinkAll(db.keywords, st.selectedKeywords, st.thought.id)), Dismiss)
  }

  /** The case-insensitive name match of the search. */
  predicate Matches(k: Keyword, term: string, lowercased: string -> string) {
    Contains(lowercased(k.name), lowercased(term))
  }

  /**
    Records the search term. An empty term reloads the whole keyword store; a
    non-empty term narrows the current list (not the store), so successive
    searches only ever shrink it.
  */
  function UpdateSearch(st: State, db: Store, env: Env, term: string): (r: Step)
    ensures r.store == db && r.effect == Send(NewKeywordUpdate)
    ensures r.state.(keywords := st.keywords) == st.(searchTerm := term)
    ensures term == "" ==> r.state.keywords == db.keywords
    ensures term != "" ==> IsSubsequence(r.state.keywords, st.keywords)
    ensures term != "" ==> forall k :: k in r.state.keywords ==> k in st.keywords && Matches(k, term, env.lowercased)
    ensures term != "" ==> forall k :: k in st.keywords && Matches(k, term, env.lowercased) ==> k in r.state.keywords
  {
    var keywords :=
      if term == "" then db.keywords
      else Filter(st.keywords, (k: Keyword) => Matches(k, term, env.lowercased));
    Step(st.(searchTerm := term, keywords := keywords), db, Send(NewKeywordUpdate))
  }

  /** Offers the create-keyword panel exactly when nothing is selected and no keyword is listed. */
  function UpdateNewKeyword(st: State): (r: State)
    ensures r.(newKeyword := st.newKeyword) == st
    ensures r.newKeyword.Some? <==> st.selectedKeywords == {} && st.keywords == []
    ensures r.newKeyword.Some? ==> r.newKeyword.value.searchTerm == st.searchTerm
    ensures r.newKeyword.Some? ==> r.newKeyword.value.selectedColor == RoyalPurple
  {
    if st.selectedKeywords == {} && st.keywords == [] then st.(newKeyword := Some(NK.Init(st.searchTerm)))
    else st.(newKeyword := None)
  }

  ghost function Reduce(st: State, db: Store, env: Env, a: Action): (r: Step)
    requires Valid(db)
    ensures Valid(r.store)
    ensures a.Binding? ==> r == Step(st, db, NoEffect)
    ensures a.ClearSearchTerm? ==> r == Step(st.(searchTerm := ""), db, Send(NewKeywordUpdate))
    ensures a.KeywordSelectionUpdate? ==>
              r == Step(st.(selectedKeywords := a.selection), db, Send(NewKeywordUpdate))
    ensures a.NewKeyword? ==> r.state == st && r.store == db
    ensures a.NewKeyword? && a.action == NK.Delegate(NK.KeywordAdded) ==> r.effect == Send(SearchTermUpdate(""))
    ensures a.NewKeyword? && a.action != NK.Delegate(NK.KeywordAdded) ==> r.effect == NoEffect
    ensures a.NewKeywordUpdate? ==> r.store == db && r.effect == NoEffect
  {
    match a
    case AddKeywordsToThoughtButtonTapped => AddKeywordsToThought(st, db)
    case Binding => Step(st, db, NoEffect)
    case ClearSearchTerm => Step(st.(searchTerm := ""), db, Send(NewKeywordUpdate))
    case KeywordSelectionUpdate(s) => Step(st.(selectedKeywords := s), db, Send(NewKeywordUpdate))
    case NewKeyword(child) =>
      if child == NK.Delegate(NK.KeywordAdded) then Step(st, db, Send(SearchTermUpdate("")))
      else Step(st, db, NoEffect)
    case NewKeywordUpdate => Step(UpdateNewKeyword(st), db, NoEffect)
    case SearchTermUpdate(term) => UpdateSearch(st, db, env, term)
  }

  /**
    A search followed by the update it sends offers the create-keyword panel
    exactly when nothing is selected and the search left no keyword, carrying
    the search term.
  */
  lemma SearchThenOffer(st: State, db: Store, env: Env, term: string)
    requires Valid(db)
    ensures var r1 := Reduce(st, db, env, SearchTermUpdate(term));
            var r2 := Reduce(r1.state, r1.store, env, r1.effect.action);
            && (r2.state.newKeyword.Some? <==> st.selectedKeywords == {} && r1.state.keywords == [])
            && (r2.state.newKeyword.Some? ==> r2.state.newKeyword.value == NK.Init(term))
  {
  }
}

=== FILE: thought_list.dfy ===
/** The thoughts of one box: creation and the selection delegate. */
module ThoughtList {
  import opened Options
  import opened Models
  import opened IdentifiedArray
  import opened EntityStore
  import opened Environment

  /** The box is read-only for this feature; `thoughts` is the list shared with the parent. */
  datatype State = State(box: Box, thoughts: seq<Thought>, selectedThoughtId: Option<string>)

  function Init(box: Box, thoughts: seq<Thought>): (s: State)
    ensures s.box == box && s.thoughts == thoughts && s.selectedThoughtId == None
  {
    State(box, thoughts, None)
  }

  datatype DelegateAction = SelectedThought(thoughtId: Option<string>)

  datatype Action =
    | Binding
    | CreateNewThoughtButtonTapped
    | Delegate(delegate: DelegateAction)
    | DidSelectThought(thoughtId: Option<string>)
    | OnAppear

  datatype Effect = NoEffect | Send(action: Action)

  datatype Step = Step(state: State, store: Store, effect: Effect)

  /** Every thought of the list belongs to the list's box. */
  predicate InBox(st: State) {
    forall i :: 0 <= i < |st.thoughts| ==> st.thoughts[i].boxId == st.box.id
  }

  /**
    Builds a default thought in the list's box and appends it both to the
    thought store and to the local list.
  */
  function CreateNewThought(st: State, db: Store, env: Env): (r: Step)
    requires Valid(db) && IdsUnique(st.thoughts, ThoughtKey)
    ensures Valid(r.store) && IdsUnique(r.state.thoughts, ThoughtKey)
    ensures r.state.box == st.box && r.state.selectedThoughtId == st.selectedThoughtId
    ensures r.effect == NoEffect
    ensures r.store.boxes == db.boxes && r.store.keywords == db.keywords
    ensures var t := NewThought(env.uuid, st.box.id, env.now);
            && t.title == "New Thought" && t.body == "Handle your thought" && t.status == Active
            && (env.uuid !in Ids(db.thoughts, ThoughtKey) ==> r.store.thoughts == db.thoughts + [t])
            && (env.uuid !in Ids(st.thoughts, ThoughtKey) ==> r.state.thoughts == st.thoughts + [t])
    ensures env.uuid in Ids(db.thoughts, ThoughtKey) ==> r.store.thoughts == db.thoughts
    ensures InBox(st) ==> InBox(r.state)
  {
    var t := NewThought(env.uuid, st.box.id, env.now);
    Step(st.(thoughts := Append(st.thoughts, ThoughtKey, t)),
         db.(thoughts := Append(db.thoughts, ThoughtKey, t)),
         NoEffect)
  }

  function Reduce(st: State, db: Store, env: Env, a: Action): (r: Step)
    requires Valid(db) && IdsUnique(st.thoughts, ThoughtKey)
    ensures Valid(r.store) && IdsUnique(r.state.thoughts, ThoughtKey)
    ensures r.state.box == st.box
    ensures a.DidSelectThought? ==> r == Step(st, db, Send(Delegate(SelectedThought(a.thoughtId))))
    ensures a.Binding? || a.OnAppear? || a.Delegate? ==> r == Step(st, db, NoEffect)
    ensures InBox(st) ==> InBox(r.state)
  {
    match a
    case Binding => Step(st, db, NoEffect)
    case CreateNewThoughtButtonTapped => CreateNewThought(st, db, env)
    case Delegate(_) => Step(st, db, NoEffect)
    case DidSelectThought(id) => Step(st, db, Send(Delegate(SelectedThought(id))))
    case OnAppear => Step(st, db, NoEffect)
  }
}

=== FILE: thought_title.dfy ===
/**
  The title editing both thought-detail features share: a draft title is
  committed when the title field loses focus with a changed draft, and an
  empty draft is stored as the default title.
*/
module ThoughtTitle {
  import opened Options
  import opened Models
  import opened IdentifiedArray

  /** The draft as it is stored: an empty draft becomes "New Thought". */
  function ValidTitle(draft: string): (t: string)
    ensures t != ""
    ensures draft != "" ==> t == draft
    ensures draft == "" ==> t == "New Thought"
  {
    if draft == "" then DefaultThoughtTitle else draft
  }

  /** Validating a stored title changes nothing. */
  lemma ValidTitleIdempotent(draft: string)
    ensures ValidTitle(ValidTitle(draft)) == ValidTitle(draft)
  {
  }

  /** A focus change asks for a commit only when the field lost focus and the draft differs from the stored title. */
  predicate CommitsOnFocus<F>(focus: Option<F>, draft: string, thought: Thought) {
    focus.None? && draft != thought.title
  }

  /**
    Writes the validated draft into the thought and stores the thought under
    its id; every other field of the thought, and every other stored thought,
    is left alone.
  */
  function Commit(thought: Thought, draft: string, thoughts: seq<Thought>): (r: (Thought, seq<Thought>))
    requires IdsUnique(thoughts, ThoughtKey)
    ensures IdsUnique(r.1, ThoughtKey)
    ensures r.0.title != ""
    ensures draft != "" ==> r.0.title == draft
    ensures draft == "" ==> r.0.title == "New Thought"
    ensures r.0.(title := thought.title) == thought
    ensures Find(r.1, ThoughtKey, thought.id) == Some(r.0)
    ensures forall id :: id != thought.id ==> Find(r.1, ThoughtKey, id) == Find(thoughts, ThoughtKey, id)
  {
    var t := thought.(title := ValidTitle(draft));
    (t, Upsert(thoughts, ThoughtKey, t))
  }

  /** Committing the same draft a second time changes nothing more. */
  lemma CommitIdempotent(thought: Thought, draft: string, thoughts: seq<Thought>)
    requires IdsUnique(thoughts, ThoughtKey)
    ensures var (t1, s1) := Commit(thought, draft, thoughts);
            Commit(t1, draft, s1) == (t1, s1)
  {
    var t := thought.(title := ValidTitle(draft));
    UpsertIdempotent(thoughts, ThoughtKey, t);
  }

  /** Sets the thought's status and stores the thought under its id. */
  function SetStatus(thought: Thought, status: Status, thoughts: seq<Thought>): (r: (Thought, seq<Thought>))
    requires IdsUnique(thoughts, ThoughtKey)
    ensures IdsUnique(r.1, ThoughtKey)
    ensures r.0.status == status && r.0.(status := thought.status) == thought
    ensures Find(r.1, ThoughtKey, thought.id) == Some(r.0)
    ensures forall id :: id != thought.id ==> Find(r.1, ThoughtKey, id) == Find(thoughts, ThoughtKey, id)
  {
    var t := thought.(status := status);
    (t, Upsert(thoughts, ThoughtKey, t))
  }
}
